=== FILE: README.md ===
# A Dafny model of the router-production call router

The router places a telephone call through a pool of leased DID numbers.
An incoming leg (call id, ANI, DNIS) leases a free DID from an active SIP
provider. The router marks the number in use, remembers the call and
answers with the DID as the DNIS to send, the dialled number as the ANI,
and a trunk named after the DID's provider. When the call comes back on the
return trunk carrying that DID, the router restores the original ANI and
DNIS and sends the call to `trunk-s4`. A periodic sweep fails calls left
ACTIVE or FORWARDED for over ten minutes and frees their numbers. After a
restart, recent unfinished calls are reloaded from the store.

The model is functional. Every operation is a pure function from a state to
a result and a new state:

- `Store` is the three tables (`providers`, `dids`, `call_records`) as
  sequences of rows, plus the provider auto-increment counter. The schema's
  keys are the predicate `Store.Valid`.
- `Manager` is the provider manager's two in-memory maps.
- `RouterState` is the router's two maps: call id to call record, and DID
  to call id.

Time is an integer count of seconds, `now`. The ten-minute and one-minute
windows are `StaleWindow` (600) and `ReleaseWindow` (60). `ORDER BY RAND()`,
the first row of an unordered join, ties in `ORDER BY start_time DESC` and
Go's map iteration order are nondeterministic. Each becomes an explicit
choice parameter (`pick` selects `cands[pick % |cands|]`, `listing` is any
order of the registry's providers). A store statement whose error the code
branches on gets a boolean success parameter. Those whose error it ignores
get one too, with the error path shown to change nothing.

Modules:

- `Wrappers`: `Option` and `Result`.
- `Models`: the records of `internal/models/models.go` and the status names.
- `Store`: the tables and their key constraints.
- `Seqs`: filtering.
- `GoStrings`: Go's `strings.TrimSpace` (with `unicode.IsSpace`) and
  `strings.Split` on newlines.
- `CallStore`: the router's SQL statements on `dids` and `call_records`.
- `ProviderManager`: the provider manager.
- `Router`: the router.
- `DidCommand`: the DID clean-up of the `did add` command.
- `ManagerProperties`, `RouterProperties`: lemmas relating several
  operations.

Where the code's behaviour is surprising, the model follows the code:

- A return leg sets the RETURNED status only in the store. The in-memory
  record keeps its status.
- A reused call id overwrites the in-memory record. The store's upsert
  changes only status and provider on the existing row.
- The status update has no state-order check, so a FAILED call can become
  RETURNED.
- A failed owner lookup yields the trunk name `trunk-`.

## Model

| member | source | states |
|---|---|---|
| Models.StateNamesDistinct | internal/models/models.go:36-44 | the five status names are distinct, so comparing stored status strings is comparing states |
| Store.Empty | internal/database/database.go:37-90 | freshly created tables satisfy the key constraints: unique provider names, allocated ids, DID foreign key, unique call ids |
| Store.ProviderById | internal/database/database.go:38 | the provider row with a given primary key is found exactly when one exists |
| Store.ProviderByIdUnique | internal/database/database.go:38 | with unique ids the row found by id is the only row with that id |
| GoStrings.LeadingSpace | internal/router/router.go:123 | the counted prefix is all white space and the character after it is not |
| GoStrings.TrailingSpace | internal/router/router.go:123 | the counted suffix is all white space and the character before it is not |
| GoStrings.IsSpaceAscii | internal/router/router.go:123 | below U+0080 white space is exactly tab, newline, vertical tab, form feed, carriage return and space; DID characters are never white space |
| GoStrings.TrimSpace | internal/router/router.go:123 | the trim has no white space at either end and is no longer than the input |
| GoStrings.TrimSpaceIsPaddedMiddle | internal/router/router.go:123 | the trim is a slice of the input with nothing but white space on either side of it |
| GoStrings.TrimSpaceOfPadded | internal/router/router.go:123 | trimming a trimmed string padded with any white space gives back exactly that string |
| GoStrings.TrimSpaceIdempotent | internal/router/router.go:123 | trimming twice is trimming once |
| GoStrings.TrimSpaceEmptyIffAllSpace | cmd/router/main.go:218-221 | the trim is empty exactly when the input is all white space |
| GoStrings.Split | cmd/router/main.go:212 | the pieces contain no newline and there is at least one |
| GoStrings.JoinSplit | cmd/router/main.go:212 | joining the pieces with newlines gives the input back, and there is one more piece than newlines |
| GoStrings.SplitJoin | cmd/router/main.go:212 | splitting the newline-join of newline-free pieces gives the pieces back |
| DidCommand.CandidateDids | cmd/router/main.go:206-213 | the file's lines replace the `--dids` list when a file is given: their newline-join is the file content |
| DidCommand.CleanDids | cmd/router/main.go:215-222 | every kept number is non-empty and trimmed, and no more numbers are kept than given |
| DidCommand.CleanDidsMembers | cmd/router/main.go:215-222 | a value is kept exactly when it is non-empty and is the trim of some candidate |
| DidCommand.CleanDidsConcat | cmd/router/main.go:217-222 | cleaning works candidate by candidate, preserving order |
| DidCommand.CleanDidsCount | cmd/router/main.go:235 | the count printed is the number of candidates minus the blank ones |
| DidCommand.CleanDidsIdempotent | cmd/router/main.go:215-222 | cleaning a cleaned list changes nothing |
| DidCommand.DidsToAdd | cmd/router/main.go:206-235 | `AddDIDs` gets exactly the cleaned candidates in order (so the `CleanDids` lemmas apply), each non-empty and equal to its own trim |
| CallStore.MarkInUse | internal/router/router.go:171-178 | every row with that number is marked in use with the destination; all other rows are unchanged |
| CallStore.UpsertCall | internal/router/router.go:180-195 | a new call id appends the record; an existing one takes only status and provider from it; call ids stay unique |
| CallStore.WithStatus | internal/router/router.go:197-206 | a terminal status stamps end time and duration, any other status leaves them alone |
| CallStore.UpdateCallStatus | internal/router/router.go:197-206 | the row with that call id gets the status, from whatever state it was in; every other row is unchanged |
| CallStore.LatestCallForDid | internal/router/router.go:208-226 | no result exactly when no ACTIVE, FORWARDED or RETURNED record of that DID started in the last ten minutes; otherwise one such record with the latest start |
| CallStore.FailStaleCalls | internal/router/router.go:268-273 | exactly the ACTIVE or FORWARDED records older than ten minutes become FAILED with end time now; the count is zero exactly when there were none |
| CallStore.ReleaseFailedDids | internal/router/router.go:281-287 | exactly the rows whose number has a record failed within the last minute are freed with no destination |
| CallStore.CleanupStaleCalls | internal/router/router.go:267-290 | a failed update changes nothing; the calls become the failed-stale table; when some call was failed and the release succeeds, the DID rows become exactly the release of the recently failed numbers, and otherwise they are untouched |
| ProviderManager.WithDefaults | internal/provider/manager.go:49-59 | zero port, empty transport and empty codecs become 5060, "udp" and ulaw/alaw; every given value is kept |
| ProviderManager.UpsertProvider | internal/provider/manager.go:63-75 | an existing name keeps its row and id and takes the new columns; a new name is appended under the next id |
| ProviderManager.AddProvider | internal/provider/manager.go:38-90 | missing name or host, or a failed insert, changes nothing; otherwise the store is the upsert of the defaulted provider, and memory files that provider under its name with the fresh row id (or the reported id when the name existed), other entries untouched |
| ProviderManager.NewDidRows | internal/provider/manager.go:101-115 | one free row per number, tagged with the provider and country |
| ProviderManager.AddDids | internal/provider/manager.go:92-126 | unknown provider, empty list, dangling provider id or failed insert change nothing; otherwise the rows and the in-memory list grow by exactly the numbers |
| ProviderManager.LeasableDids | internal/provider/manager.go:135-158 | the candidates are exactly the numbers of free rows of active providers (of the named one, if named) |
| ProviderManager.GetAvailableDid | internal/provider/manager.go:128-167 | fails with no-available exactly when no such row exists; otherwise returns the number of one |
| ProviderManager.DidsOf | internal/provider/manager.go:208-224 | a number is listed exactly when it is on a row of that provider |
| ProviderManager.LoadRows | internal/provider/manager.go:184-202 | the loop files each active row under its name with its numbers and nothing else |
| ProviderManager.LoadProviders | internal/provider/manager.go:169-206 | memory holds exactly the active providers of the store, each with the numbers of its rows |
| ProviderManager.GetProvider | internal/provider/manager.go:226-236 | found exactly when the name is in memory, else not-found for that name |
| ProviderManager.ListProviders | internal/provider/manager.go:238-248 | every in-memory provider, each once, in some order |
| ProviderManager.AvailableIsFree | internal/provider/manager.go:262-271 | total minus used is the number of the provider's free rows |
| ProviderManager.NoOwnedRowsIffZero | internal/provider/manager.go:263-266 | the count is zero exactly when no row belongs to the provider |
| ProviderManager.ProviderDidCounts | internal/provider/manager.go:261-272 | no counts exactly when the provider has no rows (the SUM is NULL); otherwise total counts its rows, used its rows in use, and available = total - used, which is its number of free rows |
| ProviderManager.GetProviderStats | internal/provider/manager.go:250-288 | not-found exactly for a name not in memory; otherwise that provider, with its DID counts when the count query runs and none when it fails |
| Router.SelectProvider | internal/router/router.go:159-169 | no name when nothing is listed; otherwise the name of a listed provider |
| Router.LeaseDid | internal/router/router.go:53-61 | the scoped lease is used when it succeeds, otherwise the any-provider lease; failure only when both fail |
| Router.JoinOwners | internal/router/router.go:67-71 | every joined provider owns a row carrying the number, and some provider is joined when such a row exists |
| Router.LookupOwner | internal/router/router.go:63-76 | a failed query yields id 0 and no name; a reported owner owns a row with the number |
| Router.RoutedResponse | internal/router/router.go:104-112 | the DID goes out as DNIS, the dialled number as ANI, on trunk `trunk-<provider>` |
| Router.Routed | internal/router/router.go:78-112 | marks every row of the number, records the ACTIVE call in both maps (overwriting), writes it to the store when the insert succeeds |
| Router.LeasedIsFree | internal/router/router.go:53-61 | a leased number is on a free row of some active provider |
| Router.ProcessIncoming | internal/router/router.go:44-117 | fails with no-available exactly when no free row of an active provider exists, and then nothing changes; a lease followed by a failed mark is a store failure that changes nothing, and success implies the mark succeeded; a success is the routed step |
| Router.ReturnResponse | internal/router/router.go:146-151 | the original ANI and DNIS go to `trunk-s4` |
| Router.ProcessReturn | internal/router/router.go:119-157 | fails, changing nothing, exactly when the trimmed DID is not correlated in memory and the store lookup either fails or finds no matchable record; a store hit is remembered; maps stay consistent |
| Router.Remembered | internal/router/router.go:136-138 | the fetched record is put in memory and correlated with its DID |
| Router.MarkReturned | internal/router/router.go:141-151 | answers from the in-memory record and sets RETURNED in the store only |
| Router.RestoreOne | internal/router/router.go:248-252 | a restorable row is put in memory as read and correlated with its DID, any other row is skipped |
| Router.RestoreRows | internal/router/router.go:242-253 | memory gains exactly the restorable records and their DIDs |
| Router.NewRouter | internal/router/router.go:25-42 | memory holds exactly the calls not finished and started within ten minutes, and nothing when the restore query fails |
| Router.UsedPlusFree | internal/router/router.go:312-320 | in-use rows plus free rows are all rows |
| Router.Statistics | internal/router/router.go:292-326 | the active count is the size of memory; total is the row count and available the number of free rows, with used plus available the total; an ignored query failure reports zeros |
| RouterProperties.IncomingThenReturn | internal/router/router.go:97-151 | a return on the leased DID, trimmed or not, restores the call's ANI and DNIS whatever ANI2 it carries; a new call's stored row ends RETURNED |
| RouterProperties.ReturnIgnoresAni2 | internal/router/router.go:124-151 | the return leg answers the same whatever ANI2 it carries |
| RouterProperties.ReturnTrimsDid | internal/router/router.go:123 | white space around the returned DID makes no difference |
| RouterProperties.TrunkNamesOwner | internal/router/router.go:63-112 | the trunk is named after a provider owning the number, or is `trunk-` when the owner query fails |
| RouterProperties.IncomingKeepsStoreValid | internal/router/router.go:78-101 | routing a call keeps the store's key constraints |
| RouterProperties.ReturnKeepsStoreValid | internal/router/router.go:144 | a return keeps the store's key constraints |
| RouterProperties.SweptDidIsReleased | internal/router/router.go:267-290 | a stale call is failed and every row of its number is freed; if a row's provider is active and eligible, that very number is returned by some lease |
| RouterProperties.SweepFreesLiveCallsDid | internal/router/router.go:281-287 | a recently FAILED record frees its number when any other call is swept, even while a live ACTIVE call holds that number |
| RouterProperties.SweepKeepsReturnMatching | internal/router/router.go:267-290 | a sweep never changes which record a return at the same instant matches |
| RouterProperties.SweepIdempotent | internal/router/router.go:267-290 | a second sweep at the same instant changes nothing |
| RouterProperties.SweepKeepsStoreValid | internal/router/router.go:267-290 | the sweep keeps the store's key constraints |
| RouterProperties.ReturnAfterSweepResurrects | internal/router/router.go:197-206 | a return on a swept call's correlated DID still answers and moves the FAILED row to RETURNED |
| RouterProperties.ReusedCallIdRedirectsFirstDid | internal/router/router.go:96-98 | after a second call under the same id, a return on the first call's DID restores the second call's ANI and DNIS |
| RouterProperties.RestoredRowIsCorrelated | internal/router/router.go:242-253 | the last restorable row of a DID is the one correlated with it, held as read |
| RouterProperties.RestoredCallResolvable | internal/router/router.go:228-256 | after a restart a return on a restored call's DID restores that call's ANI and DNIS |
| RouterProperties.SelectedIsLoaded | internal/router/router.go:159-169 | the selection is a loaded provider's name; with none loaded it is empty |
| RouterProperties.ListingHeadedBy | internal/provider/manager.go:238-248 | a listing that starts with any chosen provider exists |
| RouterProperties.AnyLoadedProviderCanBeSelected | internal/router/router.go:159-169 | any loaded provider may be the one selected |
| ManagerProperties.ReplaceRowKeepsValid | internal/database/database.go:38-39 | updating a provider row in place, same id and name, keeps the key constraints |
| ManagerProperties.AppendRowKeepsValid | internal/database/database.go:38-39 | inserting a new name under the next auto-increment id keeps the key constraints |
| ManagerProperties.AddProviderKeepsValid | internal/provider/manager.go:63-75 | adding a provider keeps unique names, allocated ids and the DID foreign key |
| ManagerProperties.AddProviderKeepsCoherent | internal/provider/manager.go:77-81 | memory copies stay rows of the store when the reported id of an updated row is its id |
| ManagerProperties.AddDidsKeepsValid | internal/provider/manager.go:110-119 | adding DIDs keeps the store's key constraints |
| ManagerProperties.DidsOfConcat | internal/provider/manager.go:208-224 | a provider's numbers in two stretches of rows are those of each stretch in turn |
| ManagerProperties.DidsOfNewRows | internal/provider/manager.go:105-115 | the rows of one bulk insert list exactly the given numbers for their provider and none for others |
| ManagerProperties.AddDidsKeepsLoaded | internal/provider/manager.go:117-122 | a registry that equals a reload still equals a reload after adding DIDs |
| ManagerProperties.EveryLeasableReachable | internal/provider/manager.go:135-166 | every free number of an eligible provider can be the one leased |
| ManagerProperties.ScopedLeaseImpliesAnyLease | internal/provider/manager.go:135-158 | whenever a scoped lease succeeds, an any-provider lease succeeds |
| ManagerProperties.AddedDidsAreLeasable | internal/provider/manager.go:92-167 | each number just added for an active provider can be leased for it and for any provider |
| ManagerProperties.LoadedProviderIsRow | internal/provider/manager.go:169-224 | with unique names, every active row is loaded under its name with its numbers |
| ManagerProperties.DidsOfCount | internal/provider/manager.go:208-224 | a provider's number list has one entry per row it owns |
| ManagerProperties.StatsTotalMatchesLoadedList | internal/provider/manager.go:250-272 | a loaded provider's DID total is the length of its in-memory list; when the count query runs there are no counts exactly when the list is empty |

## Left out

- The HTTP API of `internal/api/server.go` is not modelled. Its handlers read the request fields, answer 400 when a required field is empty, call the operations above and map their errors to status codes.
- The Asterisk configuration generator is not modelled. `AddProvider` ignores its failure, so it does not affect the state.
- Database connection, table creation, the cobra command wiring, reading the DID file, logging and printing are not modelled. The file's content is an input of `DidCommand.CandidateDids`.
- Locking and concurrency are not modelled: the 30-second cleanup ticker, and the separate lock of the provider manager. Each operation is one atomic step.
- CleanupStaleCalls: modelled as one atomic step, but the code takes no router lock for it. Its two UPDATEs can interleave with `ProcessIncomingCall` and `ProcessReturnCall`, which the model does not represent.
- Clocks are not modelled. Time is the integer parameter `now`. SQL `NOW()` and Go's `time.Now()` are taken to be the same instant.
- The date-dependent counters are not modelled: `calls_today` and `completed_calls` in `GetStatistics`, and the call counts in `GetProviderStats`. They depend on the calendar date.
- `Router.Statistics` also returns the per-provider list, which is not modelled. That list is `ListProviders` followed by `GetProviderStats`, both modelled.
- The recording path, `created_at` and `updated_at` are not modelled. The row ids of `dids` and `call_records` are not modelled either; no operation reads them.
- SQL string comparison is modelled as exact equality. MySQL's default collation (utf8mb4_0900_ai_ci in MySQL 8.0) ignores letter case and accents, so the store may treat two different strings as equal. That collation is NO PAD, so trailing spaces do count, as in the model.
- Row scans that fail in `LoadProviders`, `loadProviderDIDs` and `restoreActiveCalls` are not modelled, nor is a failing `LoadProviders` query. Each would drop a row or the whole load.
- LoadProviders: a failing `loadProviderDIDs` query (manager.go:209-212) leaves a loaded provider with no DID list at all. The model assumes that query succeeds, so every loaded provider gets its list.
- Strings are sequences of Unicode code points. Go strings are bytes, so invalid UTF-8 in a DID file or a request cannot be represented.
- `ProviderManager.GetAvailableDid`: a failing lease query is folded into "no available DIDs". The code reports both the same way.
- Unordered `SELECT`s return rows in table order in the model. These are the restore query and `loadProviderDIDs`.
- `ProviderManager.AddProvider`: the id the driver reports after an upsert that updated a row is an opaque parameter, `reportedId`. The coherence lemma assumes it is the row's id.
- `ProviderManager.UpsertProvider`: auto-increment values that an update-upsert may consume are not modelled. The counter advances only on insert.
- Codec JSON encoding and decoding are not modelled. The codec list is stored as a list.
- The invariant "a DID is in use exactly while one unfinished call holds it" is not stated, because the code does not keep it. A reused call id, an ignored store write, or a return after a sweep all break it. So does the release: it frees a number whose FAILED record ended under a minute ago even after that number was leased to a live ACTIVE call, as soon as any other call is swept (`RouterProperties.SweepFreesLiveCallsDid`). The lemmas in `RouterProperties` show these paths instead.

=== FILE: call_store.dfy ===
/**
 * The statements the router issues against the `dids` and `call_records`
 * tables, each a pure function of the rows and of the statement's `NOW()`
 * (an integer `now`, in seconds).
 */
module CallStore {
  import opened Wrappers
  import opened Models
  import opened Store
  import opened Seqs

  /** Ten minutes: how old an unfinished call gets before the sweep fails it, and how far back a return may match. */
  const StaleWindow: int := 600
  /** One minute: how recently a call must have failed for the sweep to release its DID. */
  const ReleaseWindow: int := 60

  // ---------------------------------------------------------------- markDIDInUse

  /** Every row carrying the number `did`, whoever owns it, becomes in use for `destination`. */
  function MarkInUse(dids: seq<Did>, did: string, destination: string): (r: seq<Did>)
    ensures |r| == |dids|
    ensures forall i :: 0 <= i < |dids| && dids[i].did == did ==>
      r[i] == dids[i].(inUse := true, destination := Some(destination))
    ensures forall i :: 0 <= i < |dids| && dids[i].did != did ==> r[i] == dids[i]
  {
    if |dids| == 0 then []
    else
      var rest := MarkInUse(dids[1..], did, destination);
      var head := if dids[0].did == did then dids[0].(inUse := true, destination := Some(destination)) else dids[0];
      assert forall i :: 1 <= i < |dids| ==> dids[i] == dids[1..][i - 1] && ([head] + rest)[i] == rest[i - 1];
      [head] + rest
  }

  // ---------------------------------------------------------------- storeCallRecord

  /** The position of the record with `callId`, if any. */
  function FindCall(calls: seq<CallRecord>, callId: string): (r: Option<nat>)
    ensures r.Some? ==> r.value < |calls| && calls[r.value].callId == callId
    ensures r.None? ==> forall i :: 0 <= i < |calls| ==> calls[i].callId != callId
  {
    FirstIndex(calls, (rec: CallRecord) => rec.callId == callId)
  }

  /**
   * `INSERT ... ON DUPLICATE KEY UPDATE` keyed by the unique `call_id`: a
   * new id appends the record; a known id keeps its row and takes only the
   * new status and provider, so its numbers and times stay those of the
   * first call that used the id.
   */
  function UpsertCall(calls: seq<CallRecord>, rec: CallRecord): (r: seq<CallRecord>)
    ensures UniqueCallIds(calls) ==> UniqueCallIds(r)
    ensures FindCall(calls, rec.callId).None? ==> r == calls + [rec]
    ensures FindCall(calls, rec.callId).Some? ==>
      var i := FindCall(calls, rec.callId).value;
      r == calls[i := calls[i].(status := rec.status, providerId := rec.providerId, providerName := rec.providerName)]
  {
    match FindCall(calls, rec.callId)
    case None => calls + [rec]
    case Some(i) => calls[i := calls[i].(status := rec.status, providerId := rec.providerId, providerName := rec.providerName)]
  }

  // ---------------------------------------------------------------- updateCallStatus

  /** One row of `updateCallStatus`: the end stamp and the duration are written only for a terminal status. */
  function WithStatus(rec: CallRecord, status: CallState, now: int): (r: CallRecord)
    ensures r.status == status
    ensures IsTerminal(status) ==> r.endTime == Some(now) && r.duration == now - rec.startTime
    ensures !IsTerminal(status) ==> r.endTime == rec.endTime && r.duration == rec.duration
    ensures r.(status := rec.status, endTime := rec.endTime, duration := rec.duration) == rec
  {
    if IsTerminal(status) then rec.(status := status, endTime := Some(now), duration := now - rec.startTime)
    else rec.(status := status)
  }

  /** `updateCallStatus`: the record with `callId` (if any) takes `status`, whatever its current state. */
  function UpdateCallStatus(calls: seq<CallRecord>, callId: string, status: CallState, now: int): (r: seq<CallRecord>)
    ensures |r| == |calls|
    ensures forall i :: 0 <= i < |calls| && calls[i].callId == callId ==> r[i] == WithStatus(calls[i], status, now)
    ensures forall i :: 0 <= i < |calls| && calls[i].callId != callId ==> r[i] == calls[i]
    ensures forall i :: 0 <= i < |calls| ==> r[i].callId == calls[i].callId
  {
    if |calls| == 0 then []
    else
      var rest := UpdateCallStatus(calls[1..], callId, status, now);
      var head := if calls[0].callId == callId then WithStatus(calls[0], status, now) else calls[0];
      assert forall i :: 1 <= i < |calls| ==> calls[i] == calls[1..][i - 1] && ([head] + rest)[i] == rest[i - 1];
      [head] + rest
  }

  // ---------------------------------------------------------------- getCallRecordByDID

  /**
   * A record that is ACTIVE, FORWARDED or RETURNED and started within the
   * last ten minutes: the filter shared by the restore at start-up and by
   * the store lookup of a return leg.
   */
  predicate Restorable(rec: CallRecord, now: int) {
    (rec.status == Active || rec.status == Forwarded || rec.status == Returned) && rec.startTime > now - StaleWindow
  }

  /** A restorable record for `did`. */
  predicate ReturnMatchable(rec: CallRecord, did: string, now: int) {
    rec.assignedDid == did && Restorable(rec, now)
  }

  /** The latest start time among `ms`. */
  function LatestStart(ms: seq<CallRecord>): (t: int)
    requires |ms| > 0
    ensures exists i :: 0 <= i < |ms| && ms[i].startTime == t
    ensures forall i :: 0 <= i < |ms| ==> ms[i].startTime <= t
  {
    if |ms| == 1 then ms[0].startTime
    else
      var t := LatestStart(ms[1..]);
      assert forall i :: 1 <= i < |ms| ==> ms[i] == ms[1..][i - 1];
      if ms[0].startTime >= t then ms[0].startTime else t
  }

  /**
   * `getCallRecordByDID`: among the matchable records for `did`, one with the
   * latest start (`ORDER BY start_time DESC LIMIT 1`; `pick` stands for the
   * store's choice among equal start times), or nothing.
   */
  function LatestCallForDid(calls: seq<CallRecord>, did: string, now: int, pick: nat): (r: Option<CallRecord>)
    ensures r.None? <==> forall i :: 0 <= i < |calls| ==> !ReturnMatchable(calls[i], did, now)
    ensures r.Some? ==> r.value in calls && ReturnMatchable(r.value, did, now)
    ensures r.Some? ==> forall i :: 0 <= i < |calls| && ReturnMatchable(calls[i], did, now) ==> calls[i].startTime <= r.value.startTime
  {
    var ms := Filter(calls, (rec: CallRecord) => ReturnMatchable(rec, did, now));
    if |ms| == 0 then
      assert forall i :: 0 <= i < |calls| ==> !ReturnMatchable(calls[i], did, now) by {
        forall i | 0 <= i < |calls| ensures !ReturnMatchable(calls[i], did, now) {
          assert calls[i] in calls;
        }
      }
      None
    else
      var top := LatestStart(ms);
      var ties := Filter(ms, (rec: CallRecord) => rec.startTime == top);
      assert |ties| > 0 by {
        var i :| 0 <= i < |ms| && ms[i].startTime == top;
        assert ms[i] in ties;
      }
      var chosen := ties[pick % |ties|];
      assert chosen in ties;
      assert forall i :: 0 <= i < |calls| && ReturnMatchable(calls[i], did, now) ==> calls[i].startTime <= top by {
        forall i | 0 <= i < |calls| && ReturnMatchable(calls[i], did, now) ensures calls[i].startTime <= top {
          assert calls[i] in ms;
        }
      }
      Some(chosen)
  }

  // ---------------------------------------------------------------- cleanupStaleCalls

  /** An active or forwarded record that started more than ten minutes ago. */
  predicate Sweepable(rec: CallRecord, now: int) {
    (rec.status == Active || rec.status == Forwarded) && rec.startTime < now - StaleWindow
  }

  /** The row a sweepable record becomes: FAILED, ended now, its duration left as it was. */
  function FailedAt(rec: CallRecord, now: int): CallRecord {
    rec.(status := CallState.Failed, endTime := Some(now))
  }

  /**
   * The first statement of the sweep: sweepable records fail, all others
   * are untouched; also returns how many rows it changed.
   */
  function FailStaleCalls(calls: seq<CallRecord>, now: int): (r: (seq<CallRecord>, nat))
    ensures |r.0| == |calls|
    ensures forall i :: 0 <= i < |calls| && Sweepable(calls[i], now) ==> r.0[i] == FailedAt(calls[i], now)
    ensures forall i :: 0 <= i < |calls| && !Sweepable(calls[i], now) ==> r.0[i] == calls[i]
    ensures r.1 == 0 <==> forall i :: 0 <= i < |calls| ==> !Sweepable(calls[i], now)
    ensures r.1 <= |calls|
  {
    if |calls| == 0 then ([], 0)
    else
      var (rest, n) := FailStaleCalls(calls[1..], now);
      var swept := Sweepable(calls[0], now);
      var head := if swept then FailedAt(calls[0], now) else calls[0];
      assert forall i :: 1 <= i < |calls| ==> calls[i] == calls[1..][i - 1] && ([head] + rest)[i] == rest[i - 1];
      NoneSweepableCons(calls, now);
      ([head] + rest, n + (if swept then 1 else 0))
  }

  lemma NoneSweepableCons(calls: seq<CallRecord>, now: int)
    requires |calls| > 0
    ensures (forall i :: 0 <= i < |calls| ==> !Sweepable(calls[i], now))
       <==> !Sweepable(calls[0], now) && forall i :: 0 <= i < |calls[1..]| ==> !Sweepable(calls[1..][i], now)
  {
    assert forall i :: 1 <= i < |calls| ==> calls[i] == calls[1..][i - 1];
  }

  /** Some FAILED record for `did` ended within the last minute. */
  predicate RecentlyFailed(calls: seq<CallRecord>, did: string, now: int) {
    exists j :: 0 <= j < |calls| && calls[j].assignedDid == did && calls[j].status == CallState.Failed
      && calls[j].endTime.Some? && calls[j].endTime.value > now - ReleaseWindow
  }

  /**
   * The second statement of the sweep: every DID row whose number belongs
   * to a recently failed record is freed and loses its destination.
   */
  function ReleaseFailedDids(dids: seq<Did>, calls: seq<CallRecord>, now: int): (r: seq<Did>)
    ensures |r| == |dids|
    ensures forall i :: 0 <= i < |dids| && RecentlyFailed(calls, dids[i].did, now) ==>
      r[i] == dids[i].(inUse := false, destination := None)
    ensures forall i :: 0 <= i < |dids| && !RecentlyFailed(calls, dids[i].did, now) ==> r[i] == dids[i]
  {
    if |dids| == 0 then []
    else
      var rest := ReleaseFailedDids(dids[1..], calls, now);
      var head := if RecentlyFailed(calls, dids[0].did, now) then dids[0].(inUse := false, destination := None) else dids[0];
      assert forall i :: 1 <= i < |dids| ==> dids[i] == dids[1..][i - 1] && ([head] + rest)[i] == rest[i - 1];
      [head] + rest
  }

  /**
   * `cleanupStaleCalls` for one tick at time `now`: fail the stale records
   * and, only when at least one row was failed, release the DIDs of the
   * recently failed ones. `updateOk` and `releaseOk` say whether each
   * statement succeeded; a failed statement changes nothing and is not
   * reported. The in-memory call maps are not touched. The code runs the
   * two statements without the router's lock; here they form one step.
   */
  function CleanupStaleCalls(st: Store, now: int, updateOk: bool, releaseOk: bool): (r: Store)
    ensures r.providers == st.providers && r.nextProviderId == st.nextProviderId
    ensures !updateOk ==> r == st
    ensures updateOk ==> r.calls == FailStaleCalls(st.calls, now).0
    ensures updateOk && releaseOk && FailStaleCalls(st.calls, now).1 > 0 ==>
      r.dids == ReleaseFailedDids(st.dids, FailStaleCalls(st.calls, now).0, now)
    ensures (updateOk && FailStaleCalls(st.calls, now).1 == 0) || !releaseOk ==> r.dids == st.dids
    ensures r.dids != st.dids ==> updateOk && releaseOk && exists i :: 0 <= i < |st.calls| && Sweepable(st.calls[i], now)
  {
    if !updateOk then st
    else
      var (calls, n) := FailStaleCalls(st.calls, now);
      if n > 0 && releaseOk then st.(calls := calls, dids := ReleaseFailedDids(st.dids, calls, now))
      else st.(calls := calls)
  }
}

=== FILE: did_command.dfy ===
/**
 * The DID cleaning of the `did add` command: the candidate numbers come from
 * `--dids` or, when `--file` is given, from the file's lines; each is
 * trimmed and the blank ones are dropped before the list reaches `AddDIDs`.
 * Reading the file, the flags and the printing are not modelled.
 */
module DidCommand {
  import opened Wrappers
  import opened GoStrings

  /**
   * The list the command cleans: the file content split on newlines when a
   * file was read (replacing `--dids`), otherwise the `--dids` list.
   */
  function CandidateDids(flagDids: seq<string>, fileContent: Option<string>): (r: seq<string>)
    ensures fileContent.None? ==> r == flagDids
    ensures fileContent.Some? ==> |r| >= 1 && Join(r) == fileContent.value
    ensures fileContent.Some? ==> forall i :: 0 <= i < |r| ==> '\n' !in r[i]
  {
    match fileContent
    case None => flagDids
    case Some(content) =>
      JoinSplit(content);
      Split(content)
  }

  /** One candidate after cleaning: its trim, unless that is empty. */
  function CleanOne(d: string): seq<string> {
    var t := TrimSpace(d);
    if t == "" then [] else [t]
  }

  /** The cleaning loop: every kept entry is non-empty and trimmed at both ends. */
  function CleanDids(dids: seq<string>): (clean: seq<string>)
    ensures |clean| <= |dids|
    ensures forall i :: 0 <= i < |clean| ==> clean[i] != "" && Trimmed(clean[i])
  {
    if |dids| == 0 then [] else CleanOne(dids[0]) + CleanDids(dids[1..])
  }

  /** Cleaning works entry by entry and keeps the order: cleaning a concatenation concatenates the cleanings. */
  lemma {:induction false} CleanDidsConcat(a: seq<string>, b: seq<string>)
    ensures CleanDids(a + b) == CleanDids(a) + CleanDids(b)
    decreases |a|
  {
    if |a| == 0 {
      assert a + b == b;
    } else {
      assert (a + b)[1..] == a[1..] + b;
      CleanDidsConcat(a[1..], b);
    }
  }

  /** An entry is dropped exactly when it is blank after trimming; every other entry survives as its trim. */
  lemma CleanDidsMembers(dids: seq<string>)
    ensures forall x :: x in CleanDids(dids) <==> x != "" && exists i :: 0 <= i < |dids| && TrimSpace(dids[i]) == x
  {
    forall x | x in CleanDids(dids)
      ensures x != "" && exists i :: 0 <= i < |dids| && TrimSpace(dids[i]) == x
    {
      KeptIsTrim(dids, x);
    }
    forall i | 0 <= i < |dids| && TrimSpace(dids[i]) != ""
      ensures TrimSpace(dids[i]) in CleanDids(dids)
    {
      TrimIsKept(dids, i);
    }
  }

  /** Every kept entry is the trim of some candidate. */
  lemma {:induction false} KeptIsTrim(dids: seq<string>, x: string)
    requires x in CleanDids(dids)
    ensures x != "" && exists i :: 0 <= i < |dids| && TrimSpace(dids[i]) == x
    decreases |dids|
  {
    var tail := dids[1..];
    assert CleanDids(dids) == CleanOne(dids[0]) + CleanDids(tail);
    if x !in CleanOne(dids[0]) {
      KeptIsTrim(tail, x);
      var i :| 0 <= i < |tail| && TrimSpace(tail[i]) == x;
      assert dids[i + 1] == tail[i];
    }
  }

  /** The non-blank trim of every candidate is kept. */
  lemma {:induction false} TrimIsKept(dids: seq<string>, i: int)
    requires 0 <= i < |dids| && TrimSpace(dids[i]) != ""
    ensures TrimSpace(dids[i]) in CleanDids(dids)
    decreases |dids|
  {
    var tail := dids[1..];
    assert CleanDids(dids) == CleanOne(dids[0]) + CleanDids(tail);
    if i > 0 {
      assert tail[i - 1] == dids[i];
      TrimIsKept(tail, i - 1);
    }
  }

  function CountBlank(dids: seq<string>): nat {
    if |dids| == 0 then 0 else (if TrimSpace(dids[0]) == "" then 1 else 0) + CountBlank(dids[1..])
  }

  /** The count the command reports is the number of candidates minus the blank ones. */
  lemma {:induction false} CleanDidsCount(dids: seq<string>)
    ensures |CleanDids(dids)| == |dids| - CountBlank(dids)
    decreases |dids|
  {
    if |dids| > 0 {
      CleanDidsCount(dids[1..]);
    }
  }

  /** A string trimmed at both ends is its own trim. */
  lemma TrimmedIsFixed(s: string)
    requires Trimmed(s)
    ensures TrimSpace(s) == s
  {
    assert [] + s + [] == s;
    TrimSpaceOfPadded([], s, []);
  }

  /** Cleaning an already-cleaned list changes nothing. */
  lemma {:induction false} CleanDidsIdempotent(dids: seq<string>)
    ensures CleanDids(CleanDids(dids)) == CleanDids(dids)
    decreases |dids|
  {
    if |dids| > 0 {
      var head := CleanOne(dids[0]);
      CleanDidsIdempotent(dids[1..]);
      CleanDidsConcat(head, CleanDids(dids[1..]));
      if head != [] {
        TrimmedIsFixed(head[0]);
        assert head[1..] == [];
        assert CleanDids(head) == head;
      }
    }
  }

  /**
   * The numbers `did add` hands to `AddDIDs`: exactly the cleaned
   * candidates, in order, so the lemmas about `CleanDids` apply to them.
   * Their count is what it prints.
   */
  function DidsToAdd(flagDids: seq<string>, fileContent: Option<string>): (dids: seq<string>)
    ensures dids == CleanDids(CandidateDids(flagDids, fileContent))
    ensures forall i :: 0 <= i < |dids| ==> dids[i] != "" && TrimSpace(dids[i]) == dids[i]
    ensures fileContent.None? ==> |dids| <= |flagDids|
    ensures fileContent.Some? ==> |dids| <= |Split(fileContent.value)|
  {
    var clean := CleanDids(CandidateDids(flagDids, fileContent));
    assert forall i :: 0 <= i < |clean| ==> TrimSpace(clean[i]) == clean[i] by {
      forall i | 0 <= i < |clean| ensures TrimSpace(clean[i]) == clean[i] { TrimmedIsFixed(clean[i]); }
    }
    clean
  }
}

=== FILE: go_strings.dfy ===
/**
 * The two functions of Go's `strings` package that the router relies on:
 * `TrimSpace` (return-call DIDs, the DID cleaning of the command line) and
 * `Split` on a newline (reading a DID file). Strings are sequences of Unicode
 * code points.
 */
module GoStrings {

  /** `unicode.IsSpace`: the Latin-1 white space plus the Unicode White_Space code points above it. */
  predicate IsSpace(c: char) {
    || c == '\t' || c == '\n' || c == '\U{000B}' || c == '\U{000C}' || c == '\r' || c == ' '
    || c == '\U{0085}' || c == '\U{00A0}' || c == '\U{1680}'
    || ('\U{2000}' <= c <= '\U{200A}')
    || c == '\U{2028}' || c == '\U{2029}' || c == '\U{202F}' || c == '\U{205F}' || c == '\U{3000}'
  }

  /**
   * Below U+0080 `IsSpace` is Go's ASCII table: tab, newline, vertical tab,
   * form feed, carriage return and space. Digits, `+` and letters, the
   * characters of a DID, are never white space.
   */
  lemma IsSpaceAscii(c: char)
    ensures c <= '\U{007F}' ==> (IsSpace(c) <==> c in "\t\n\U{000B}\U{000C}\r ")
    ensures ('0' <= c <= '9' || c == '+' || 'a' <= c <= 'z' || 'A' <= c <= 'Z') ==> !IsSpace(c)
  {
  }

  predicate AllSpace(s: string) {
    forall i :: 0 <= i < |s| ==> IsSpace(s[i])
  }

  /** Neither end of `s` is white space (vacuously true of the empty string). */
  predicate Trimmed(s: string) {
    |s| == 0 || (!IsSpace(s[0]) && !IsSpace(s[|s| - 1]))
  }

  /** The length of the white-space run at the start of `s`. */
  function LeadingSpace(s: string): (n: nat)
    ensures n <= |s| && AllSpace(s[..n])
    ensures n == |s| || !IsSpace(s[n])
    decreases |s|
  {
    if |s| > 0 && IsSpace(s[0]) then
      var k := LeadingSpace(s[1..]);
      assert s[..1 + k] == [s[0]] + s[1..][..k];
      1 + k
    else 0
  }

  /** The length of the white-space run at the end of `s`. */
  function TrailingSpace(s: string): (n: nat)
    ensures n <= |s| && AllSpace(s[|s| - n..])
    ensures n == |s| || !IsSpace(s[|s| - n - 1])
    decreases |s|
  {
    if |s| > 0 && IsSpace(s[|s| - 1]) then
      var init := s[..|s| - 1];
      var k := TrailingSpace(init);
      assert s[|s| - 1 - k..] == init[|init| - k..] + [s[|s| - 1]];
      1 + k
    else 0
  }

  /** `strings.TrimSpace`: `s` without the white space at either end. */
  function TrimSpace(s: string): (r: string)
    ensures |r| <= |s| && Trimmed(r)
  {
    var m := s[LeadingSpace(s)..];
    m[..|m| - TrailingSpace(m)]
  }

  /** `r` is a slice of `s` with nothing but white space on either side of it. */
  predicate PaddedMiddle(s: string, r: string) {
    exists i :: 0 <= i <= |s| - |r| && r == s[i..i + |r|] && AllSpace(s[..i]) && AllSpace(s[i + |r|..])
  }

  /** The trim is what is left once white space is cut away at both ends. */
  lemma TrimSpaceIsPaddedMiddle(s: string)
    ensures PaddedMiddle(s, TrimSpace(s))
  {
    var i := LeadingSpace(s);
    var m := s[i..];
    var t := TrailingSpace(m);
    var r := TrimSpace(s);
    assert r == m[..|m| - t] && |r| == |m| - t;
    assert r == s[i..i + |r|];
    assert s[i + |r|..] == m[|m| - t..];
    assert AllSpace(s[..i]) && AllSpace(s[i + |r|..]);
  }

  lemma {:induction false} LeadingSpaceOfPadded(a: string, t: string)
    requires AllSpace(a)
    requires |t| == 0 || !IsSpace(t[0])
    ensures LeadingSpace(a + t) == |a|
    decreases |a|
  {
    if |a| > 0 {
      assert (a + t)[0] == a[0] && (a + t)[1..] == a[1..] + t;
      LeadingSpaceOfPadded(a[1..], t);
    } else {
      assert a + t == t;
    }
  }

  lemma {:induction false} TrailingSpaceOfPadded(t: string, b: string)
    requires AllSpace(b)
    requires |t| == 0 || !IsSpace(t[|t| - 1])
    ensures TrailingSpace(t + b) == |b|
    decreases |b|
  {
    if |b| > 0 {
      assert (t + b)[|t + b| - 1] == b[|b| - 1];
      assert (t + b)[..|t + b| - 1] == t + b[..|b| - 1];
      TrailingSpaceOfPadded(t, b[..|b| - 1]);
    } else {
      assert t + b == t;
    }
  }

  /**
   * `TrimSpace` is fully determined by its contract: whatever white space
   * surrounds a trimmed middle, trimming returns exactly that middle.
   */
  lemma TrimSpaceOfPadded(a: string, m: string, b: string)
    requires AllSpace(a) && AllSpace(b) && Trimmed(m)
    ensures TrimSpace(a + m + b) == m
  {
    var s := a + m + b;
    if |m| == 0 {
      assert s == (a + b) + [];
      assert AllSpace(a + b);
      LeadingSpaceOfPadded(a + b, []);
    } else {
      assert s == a + (m + b);
      LeadingSpaceOfPadded(a, m + b);
      assert s[|a|..] == m + b;
      TrailingSpaceOfPadded(m, b);
      assert (m + b)[..|m|] == m;
    }
  }

  /** Trimming is idempotent: a trimmed string is its own trim. */
  lemma TrimSpaceIdempotent(s: string)
    ensures TrimSpace(TrimSpace(s)) == TrimSpace(s)
  {
    var m := TrimSpace(s);
    assert [] + m + [] == m;
    TrimSpaceOfPadded([], m, []);
  }

  /** A string trims to the empty string exactly when it is all white space. */
  lemma TrimSpaceEmptyIffAllSpace(s: string)
    ensures TrimSpace(s) == "" <==> AllSpace(s)
  {
    if AllSpace(s) {
      assert s + [] + [] == s;
      TrimSpaceOfPadded(s, [], []);
    }
    if TrimSpace(s) == "" {
      TrimSpaceIsPaddedMiddle(s);
      var i :| 0 <= i <= |s| && AllSpace(s[..i]) && AllSpace(s[i..]);
      assert forall k :: 0 <= k < |s| ==> (if k < i then s[k] == s[..i][k] else s[k] == s[i..][k - i]);
    }
  }

  /** `strings.Split(s, "\n")`: the pieces between newlines, one more piece than there are newlines. */
  function Split(s: string): (parts: seq<string>)
    ensures |parts| >= 1
    ensures forall i :: 0 <= i < |parts| ==> '\n' !in parts[i]
    decreases |s|
  {
    if |s| == 0 then [""]
    else if s[0] == '\n' then [""] + Split(s[1..])
    else
      var rest := Split(s[1..]);
      [[s[0]] + rest[0]] + rest[1..]
  }

  /** `strings.Join(parts, "\n")`. */
  function Join(parts: seq<string>): string
    requires |parts| >= 1
  {
    if |parts| == 1 then parts[0] else parts[0] + "\n" + Join(parts[1..])
  }

  function CountNewlines(s: string): nat {
    if |s| == 0 then 0 else (if s[0] == '\n' then 1 else 0) + CountNewlines(s[1..])
  }

  /** Joining the pieces back with newlines gives the original text. */
  lemma {:induction false} JoinSplit(s: string)
    ensures Join(Split(s)) == s
    ensures |Split(s)| == CountNewlines(s) + 1
    decreases |s|
  {
    if |s| > 0 {
      var tail := s[1..];
      var rest := Split(tail);
      JoinSplit(tail);
      assert s == [s[0]] + tail;
      if s[0] == '\n' {
        var parts := [""] + rest;
        assert Split(s) == parts;
        assert parts[1..] == rest;
        assert Join(parts) == "" + "\n" + Join(rest);
      } else {
        JoinConsHead(s[0], rest);
      }
    }
  }

  /** Prepending a character to the first piece prepends it to the join. */
  lemma {:induction false} JoinConsHead(c: char, rest: seq<string>)
    requires |rest| >= 1
    ensures Join([[c] + rest[0]] + rest[1..]) == [c] + Join(rest)
  {
    var head := [c] + rest[0];
    var parts := [head] + rest[1..];
    assert |parts| == |rest| && parts[0] == head && parts[1..] == rest[1..];
    if |rest| > 1 {
      var j := Join(rest[1..]);
      assert Join(parts) == head + "\n" + j;
      assert Join(rest) == rest[0] + "\n" + j;
      assert head + "\n" + j == [c] + (rest[0] + "\n" + j);
    }
  }

  lemma {:induction false} SplitNoNewline(x: string)
    requires '\n' !in x
    ensures Split(x) == [x]
    decreases |x|
  {
    if |x| > 0 {
      assert '\n' !in x[1..] by {
        forall k | 0 <= k < |x[1..]| ensures x[1..][k] != '\n' { assert x[1..][k] == x[k + 1]; }
      }
      SplitNoNewline(x[1..]);
      assert x == [x[0]] + x[1..];
    }
  }

  lemma {:induction false} SplitAtNewline(x: string, y: string)
    requires '\n' !in x
    ensures Split(x + "\n" + y) == [x] + Split(y)
    decreases |x|
  {
    if |x| == 0 {
      assert x + "\n" + y == "\n" + y;
      assert ("\n" + y)[1..] == y;
    } else {
      assert (x + "\n" + y)[1..] == x[1..] + "\n" + y;
      assert '\n' !in x[1..] by {
        forall k | 0 <= k < |x[1..]| ensures x[1..][k] != '\n' { assert x[1..][k] == x[k + 1]; }
      }
      SplitAtNewline(x[1..], y);
      assert x == [x[0]] + x[1..];
    }
  }

  /** Splitting newline-free pieces joined by newlines gives the pieces back. */
  lemma {:induction false} SplitJoin(parts: seq<string>)
    requires |parts| >= 1
    requires forall i :: 0 <= i < |parts| ==> '\n' !in parts[i]
    ensures Split(Join(parts)) == parts
    decreases |parts|
  {
    if |parts| == 1 {
      SplitNoNewline(parts[0]);
    } else {
      SplitJoin(parts[1..]);
      SplitAtNewline(parts[0], Join(parts[1..]));
      assert parts == [parts[0]] + parts[1..];
    }
  }
}

=== FILE: manager_properties.dfy ===
/**
 * Properties that relate several registry operations: the store's key
 * constraints are kept, memory stays in step with the store, and what is
 * added can be leased.
 */
module ManagerProperties {
  import opened Wrappers
  import opened Models
  import opened Store
  import opened ProviderManager

  // ---------------------------------------------------------------- AddProvider

  /** Replacing a provider row by one with the same id and name keeps the store's key constraints. */
  lemma ReplaceRowKeepsValid(st: Store, i: int, row: Provider)
    requires Valid(st) && 0 <= i < |st.providers|
    requires row.id == st.providers[i].id && row.name == st.providers[i].name
    ensures Valid(st.(providers := st.providers[i := row]))
  {
    var ps := st.providers[i := row];
    assert forall j :: 0 <= j < |ps| ==> ps[j].id == st.providers[j].id && ps[j].name == st.providers[j].name;
    forall k | HasProviderId(st.providers, k) ensures HasProviderId(ps, k) {
      var j :| 0 <= j < |st.providers| && st.providers[j].id == k;
      assert ps[j].id == k;
    }
  }

  /** Appending a row under the next id with a new name keeps the store's key constraints. */
  lemma AppendRowKeepsValid(st: Store, row: Provider)
    requires Valid(st) && row.id == st.nextProviderId
    requires forall j :: 0 <= j < |st.providers| ==> st.providers[j].name != row.name
    ensures Valid(st.(providers := st.providers + [row], nextProviderId := st.nextProviderId + 1))
  {
    var ps := st.providers + [row];
    assert forall j :: 0 <= j < |st.providers| ==> ps[j] == st.providers[j];
    forall k | HasProviderId(st.providers, k) ensures HasProviderId(ps, k) {
      var j :| 0 <= j < |st.providers| && st.providers[j].id == k;
      assert ps[j].id == k;
    }
  }

  /** `AddProvider` keeps the unique name, the id allocation and the foreign key of the store. */
  lemma AddProviderKeepsValid(m: Manager, st: Store, p: Provider, insertOk: bool, reportedId: int)
    requires Valid(st)
    ensures Valid(AddProvider(m, st, p, insertOk, reportedId).store)
  {
    var s := AddProvider(m, st, p, insertOk, reportedId);
    if s.outcome.Ok? {
      var q := WithDefaults(p);
      var (st', id) := UpsertProvider(st, q);
      assert s.store == st';
      match FindProvider(st.providers, q.name)
      case Some(i) => ReplaceRowKeepsValid(st, i, q.(id := id));
      case None => AppendRowKeepsValid(st, q.(id := id));
    }
  }

  /**
   * Memory and store agree after `AddProvider` as long as the id the driver
   * reports for an updated row is that row's id; the in-memory copy then is
   * exactly the stored row.
   */
  lemma AddProviderKeepsCoherent(m: Manager, st: Store, p: Provider, insertOk: bool, reportedId: int)
    requires Coherent(m, st)
    requires FindProvider(st.providers, p.name).Some? ==> reportedId == st.providers[FindProvider(st.providers, p.name).value].id
    ensures Coherent(AddProvider(m, st, p, insertOk, reportedId).manager, AddProvider(m, st, p, insertOk, reportedId).store)
  {
    var s := AddProvider(m, st, p, insertOk, reportedId);
    if s.outcome.Ok? {
      var q := WithDefaults(p);
      var (st', id) := UpsertProvider(st, q);
      assert s.store == st';
      assert s.manager.providers[p.name] == q.(id := id);
      forall k | k in s.manager.providers && k != p.name
        ensures s.manager.providers[k] in st'.providers
      {
        var row := m.providers[k];
        var j :| 0 <= j < |st.providers| && st.providers[j] == row;
        match FindProvider(st.providers, q.name)
        case Some(i) =>
          assert i != j;
          assert st'.providers[j] == row;
        case None =>
          assert st'.providers[j] == row;
      }
    }
  }

  // ---------------------------------------------------------------- AddDIDs

  /** `AddDIDs` keeps the store's key constraints: the new rows reference an existing provider. */
  lemma AddDidsKeepsValid(m: Manager, st: Store, name: string, dids: seq<string>, country: string, insertOk: bool)
    requires Valid(st)
    ensures Valid(AddDids(m, st, name, dids, country, insertOk).store)
  {
    var s := AddDids(m, st, name, dids, country, insertOk);
    if s.outcome.Ok? {
      var rows := NewDidRows(dids, m.providers[name], country);
      assert forall i :: |st.dids| <= i < |s.store.dids| ==> s.store.dids[i] == rows[i - |st.dids|];
    }
  }

  lemma {:induction false} DidsOfConcat(a: seq<Did>, b: seq<Did>, id: int)
    ensures DidsOf(a + b, id) == DidsOf(a, id) + DidsOf(b, id)
    decreases |a|
  {
    if |a| > 0 {
      assert (a + b)[0] == a[0] && (a + b)[1..] == a[1..] + b;
      DidsOfConcat(a[1..], b, id);
      var head := if a[0].providerId == id then [a[0].did] else [];
      assert DidsOf(a + b, id) == head + DidsOf(a[1..] + b, id);
      assert DidsOf(a, id) == head + DidsOf(a[1..], id);
      assert head + (DidsOf(a[1..], id) + DidsOf(b, id)) == (head + DidsOf(a[1..], id)) + DidsOf(b, id);
    } else {
      assert a + b == b;
    }
  }

  /** The rows of one bulk insert list, for their provider, exactly the numbers given, and nothing for any other id. */
  lemma {:induction false} DidsOfNewRows(dids: seq<string>, p: Provider, country: string, id: int)
    ensures DidsOf(NewDidRows(dids, p, country), id) == if id == p.id then dids else []
    decreases |dids|
  {
    if |dids| > 0 {
      var rows := NewDidRows(dids, p, country);
      assert rows[0] == Did(dids[0], p.id, p.name, false, None, country);
      assert rows[1..] == NewDidRows(dids[1..], p, country);
      DidsOfNewRows(dids[1..], p, country, id);
      assert DidsOf(rows, id) == (if id == p.id then [dids[0]] else []) + DidsOf(rows[1..], id);
      if id == p.id {
        assert dids == [dids[0]] + dids[1..];
      }
    }
  }

  /**
   * A registry freshly loaded from the store stays equal to what a reload
   * would give after `AddDIDs`: the provider's in-memory list grows by
   * exactly the rows the store gained.
   */
  lemma AddDidsKeepsLoaded(m: Manager, st: Store, name: string, dids: seq<string>, country: string, insertOk: bool)
    requires Valid(st) && LoadedFrom(m, st)
    ensures
      var s := AddDids(m, st, name, dids, country, insertOk);
      LoadedFrom(s.manager, s.store)
  {
    var s := AddDids(m, st, name, dids, country, insertOk);
    if s.outcome.Ok? {
      var p := m.providers[name];
      var rows := NewDidRows(dids, p, country);
      forall k | k in s.manager.providers
        ensures s.manager.providerDids[k] == DidsOf(s.store.dids, s.manager.providers[k].id)
      {
        var q := m.providers[k];
        DidsOfConcat(st.dids, rows, q.id);
        DidsOfNewRows(dids, p, country, q.id);
        if k != name {
          var i :| 0 <= i < |st.providers| && st.providers[i] == p;
          var j :| 0 <= j < |st.providers| && st.providers[j] == q;
          assert i != j;
          assert q.id != p.id;
        }
      }
    }
  }

  // ---------------------------------------------------------------- leasing

  /** Every leasable row can be the one the random choice lands on. */
  lemma {:induction false} EveryLeasableReachable(st: Store, name: string, i: int)
    requires 0 <= i < |st.dids| && Leasable(st.providers, st.dids[i], name)
    ensures exists pick: nat :: GetAvailableDid(st, name, pick) == Ok(st.dids[i].did)
  {
    var cands := LeasableDids(st.providers, st.dids, name);
    assert st.dids[i].did in cands;
    var k :| 0 <= k < |cands| && cands[k] == st.dids[i].did;
    PickReaches(st, name, k);
  }

  /** Pick `k` lands on the `k`-th candidate. */
  lemma {:induction false} PickReaches(st: Store, name: string, k: nat)
    requires k < |LeasableDids(st.providers, st.dids, name)|
    ensures GetAvailableDid(st, name, k) == Ok(LeasableDids(st.providers, st.dids, name)[k])
  {
    var cands := LeasableDids(st.providers, st.dids, name);
    assert k % |cands| == k;
  }

  /** Whenever a lease for one provider succeeds, a lease for any provider succeeds too. */
  lemma ScopedLeaseImpliesAnyLease(st: Store, name: string, pick: nat, anyPick: nat)
    requires GetAvailableDid(st, name, pick).Ok?
    ensures GetAvailableDid(st, "", anyPick).Ok?
  {
    var i :| 0 <= i < |st.dids| && st.dids[i].did == GetAvailableDid(st, name, pick).value
      && Leasable(st.providers, st.dids[i], name);
    assert Leasable(st.providers, st.dids[i], "");
  }

  /**
   * Numbers just added for an active provider whose in-memory copy is its
   * stored row can each be leased for that provider and for any provider.
   */
  lemma AddedDidsAreLeasable(m: Manager, st: Store, name: string, dids: seq<string>, country: string, insertOk: bool, j: int)
    requires Coherent(m, st)
    requires AddDids(m, st, name, dids, country, insertOk).outcome.Ok?
    requires m.providers[name].active
    requires 0 <= j < |dids|
    ensures
      var st' := AddDids(m, st, name, dids, country, insertOk).store;
      && (exists pick: nat :: GetAvailableDid(st', name, pick) == Ok(dids[j]))
      && (exists pick: nat :: GetAvailableDid(st', "", pick) == Ok(dids[j]))
  {
    var st' := AddDids(m, st, name, dids, country, insertOk).store;
    var p := m.providers[name];
    var i :| 0 <= i < |st.providers| && st.providers[i] == p;
    var row := |st.dids| + j;
    assert st'.dids[row] == NewDidRows(dids, p, country)[j];
    assert st'.providers == st.providers;
    assert Leasable(st'.providers, st'.dids[row], name);
    assert Leasable(st'.providers, st'.dids[row], "");
    EveryLeasableReachable(st', name, row);
    EveryLeasableReachable(st', "", row);
  }

  // ---------------------------------------------------------------- loading and statistics

  /** With unique names, loading files every active row under its name, with the numbers of its rows. */
  lemma LoadedProviderIsRow(st: Store, i: int)
    requires UniqueNames(st.providers)
    requires 0 <= i < |st.providers| && st.providers[i].active
    ensures
      var m := LoadProviders(st);
      && st.providers[i].name in m.providers && m.providers[st.providers[i].name] == st.providers[i]
      && m.providerDids[st.providers[i].name] == DidsOf(st.dids, st.providers[i].id)
  {
    var m := LoadProviders(st);
    var k := st.providers[i].name;
    assert k in ActiveNames(st.providers);
    var j :| 0 <= j < |st.providers| && st.providers[j] == m.providers[k];
  }

  /** A provider's number list holds one entry per row it owns. */
  lemma {:induction false} DidsOfCount(rows: seq<Did>, id: int)
    ensures |DidsOf(rows, id)| == CountOwned(rows, id)
    decreases |rows|
  {
    if |rows| > 0 {
      DidsOfCount(rows[1..], id);
    }
  }

  /**
   * For a loaded provider, the statistics' DID total is the length of its
   * in-memory number list; when the count query runs, there are no counts
   * exactly when the list is empty.
   */
  lemma StatsTotalMatchesLoadedList(m: Manager, st: Store, name: string, countOk: bool)
    requires LoadedFrom(m, st) && name in m.providers
    ensures GetProviderStats(m, st, name, countOk).Ok?
    ensures
      var counts := GetProviderStats(m, st, name, countOk).value.didCounts;
      && (countOk ==> (counts.None? <==> |m.providerDids[name]| == 0))
      && (counts.Some? ==> counts.value.total == |m.providerDids[name]|)
  {
    var id := m.providers[name].id;
    DidsOfCount(st.dids, id);
    NoOwnedRowsIffZero(st.dids, id);
  }
}

=== FILE: models.dfy ===
/**
 * The records the router passes around: providers, DID rows, call records
 * and the response handed back to the dial plan. Timestamps are whole
 * seconds on one integer clock; the creation/update stamps and the recording
 * path of the original records are not modelled.
 */
module Models {
  import opened Wrappers

  /** An upstream carrier. `name` is its key everywhere; `id` is its row id in the store. */
  datatype Provider = Provider(
    id: int,
    name: string,
    host: string,
    port: int,
    username: string,
    password: string,
    realm: string,
    transport: string,
    codecs: seq<string>,
    maxChannels: int,
    active: bool,
    country: string)

  /**
   * One row of the DID pool. The same number may appear in several rows;
   * `destination` is SQL NULL (None) until the number is first leased and
   * again after the reclaim sweep releases it.
   */
  datatype Did = Did(
    did: string,
    providerId: int,
    providerName: string,
    inUse: bool,
    destination: Option<string>,
    country: string)

  /** The five states a call record can be in. */
  datatype CallState = Active | Forwarded | Returned | Completed | Failed

  /** The string each state is stored and compared as. */
  function StateName(s: CallState): string {
    match s
    case Active => "ACTIVE"
    case Forwarded => "FORWARDED"
    case Returned => "RETURNED"
    case Completed => "COMPLETED"
    case Failed => "FAILED"
  }

  /**
   * Distinct states are stored as distinct strings, so comparing stored
   * status strings is the same as comparing states.
   */
  lemma StateNamesDistinct(a: CallState, b: CallState)
    ensures StateName(a) == StateName(b) <==> a == b
  {
  }

  /** The states `updateCallStatus` stamps an end time and a duration for. */
  predicate IsTerminal(s: CallState) {
    s == Completed || s == Failed
  }

  /**
   * A routed call: the caller/dialled pair as first seen, the one DID leased
   * for it, and its life-cycle stamps. `endTime` is optional (a nil
   * pointer), `duration` is a plain number that defaults to 0.
   */
  datatype CallRecord = CallRecord(
    callId: string,
    originalAni: string,
    originalDnis: string,
    assignedDid: string,
    providerId: int,
    providerName: string,
    status: CallState,
    startTime: int,
    endTime: Option<int>,
    duration: int)

  /** What the dial plan receives for an incoming or a return leg. */
  datatype CallResponse = CallResponse(
    status: string,
    didAssigned: string,
    nextHop: string,
    aniToSend: string,
    dnisToSend: string,
    providerName: string,
    trunkName: string)

  /** The error kinds the core distinguishes. */
  datatype Error =
    | Validation
    | ProviderNotFound(name: string)
    | NoAvailableDids
    | NoActiveCall(did: string)
    | StoreFailure
}

=== FILE: provider_manager.dfy ===
/**
 * The provider registry: an in-memory index of providers by name and of each
 * provider's DID numbers, backed by the `providers` and `dids` tables.
 * Every operation is one atomic step (the registry holds its lock for the
 * whole body). Store faults appear as explicit flags exactly where the code
 * branches on a statement's error.
 */
module ProviderManager {
  import opened Wrappers
  import opened Models
  import opened Store

  datatype Manager = Manager(
    providers: map<string, Provider>,
    providerDids: map<string, seq<string>>)

  /** A provider that is a row of the table is found by its name. */
  lemma FindProviderOfRow(ps: seq<Provider>, p: Provider)
    requires p in ps
    ensures FindProvider(ps, p.name).Some?
  {
  }

  /** The result of a registry operation together with the state it leaves behind. */
  datatype Step = Step(outcome: Result<(), Error>, manager: Manager, store: Store)

  /** Every in-memory provider is filed under its own name. */
  predicate KeyedByName(m: Manager) {
    forall k :: k in m.providers ==> m.providers[k].name == k
  }

  /** Every in-memory provider is filed under its own name and is a row of the store. */
  predicate Coherent(m: Manager, st: Store) {
    KeyedByName(m) && forall k :: k in m.providers ==> m.providers[k] in st.providers
  }

  // ---------------------------------------------------------------- AddProvider

  /**
   * The defaults `AddProvider` fills in: a zero port, an empty transport and an
   * empty codec list are replaced; every other field is kept as given.
   */
  function WithDefaults(p: Provider): (q: Provider)
    ensures q.port != 0 && q.transport != "" && |q.codecs| > 0
    ensures p.port == 0 ==> q.port == 5060
    ensures p.transport == "" ==> q.transport == "udp"
    ensures |p.codecs| == 0 ==> q.codecs == ["ulaw", "alaw"]
    ensures p.port != 0 ==> q.port == p.port
    ensures p.transport != "" ==> q.transport == p.transport
    ensures |p.codecs| > 0 ==> q.codecs == p.codecs
    ensures q.(port := p.port, transport := p.transport, codecs := p.codecs) == p
  {
    p.(port := if p.port == 0 then 5060 else p.port,
       transport := if p.transport == "" then "udp" else p.transport,
       codecs := if |p.codecs| == 0 then ["ulaw", "alaw"] else p.codecs)
  }

  /**
   * `INSERT ... ON DUPLICATE KEY UPDATE` keyed by the unique name: an existing
   * row keeps its id and takes every other column from `q`; otherwise a row
   * is appended under the next auto-increment id. Returns the new store and
   * the id of the affected row.
   */
  function UpsertProvider(st: Store, q: Provider): (r: (Store, int))
    ensures r.0.dids == st.dids && r.0.calls == st.calls
    ensures q.(id := r.1) in r.0.providers
    ensures FindProvider(st.providers, q.name).Some? ==>
      var i := FindProvider(st.providers, q.name).value;
      r.1 == st.providers[i].id && r.0.providers == st.providers[i := q.(id := r.1)]
        && r.0.nextProviderId == st.nextProviderId
    ensures FindProvider(st.providers, q.name).None? ==>
      r.1 == st.nextProviderId && r.0.providers == st.providers + [q.(id := r.1)]
        && r.0.nextProviderId == st.nextProviderId + 1
  {
    match FindProvider(st.providers, q.name)
    case Some(i) =>
      var id := st.providers[i].id;
      assert st.providers[i := q.(id := id)][i] == q.(id := id);
      (st.(providers := st.providers[i := q.(id := id)]), id)
    case None =>
      var id := st.nextProviderId;
      (st.(providers := st.providers + [q.(id := id)], nextProviderId := id + 1), id)
  }

  /**
   * `AddProvider`. `insertOk` says whether the upsert succeeded; `reportedId`
   * is what the driver reports as the last insert id when the upsert updated
   * an existing row (on a fresh insert it is the new row's id). The
   * configuration files written afterwards are not part of the state, and
   * their failure does not fail the call.
   */
  function AddProvider(m: Manager, st: Store, p: Provider, insertOk: bool, reportedId: int): (s: Step)
    ensures p.name == "" || p.host == "" ==> s == Step(Err(Validation), m, st)
    ensures p.name != "" && p.host != "" && !insertOk ==> s == Step(Err(StoreFailure), m, st)
    ensures s.outcome.Ok? <==> p.name != "" && p.host != "" && insertOk
    ensures s.outcome.Ok? ==>
      && s.manager.providerDids == m.providerDids
      && s.manager.providers.Keys == m.providers.Keys + {p.name}
      && s.manager.providers[p.name] == WithDefaults(p).(id := s.manager.providers[p.name].id)
      && (forall k :: k in m.providers && k != p.name ==> s.manager.providers[k] == m.providers[k])
      && s.store.dids == st.dids && s.store.calls == st.calls
      && FindProvider(s.store.providers, p.name).Some?
    ensures s.outcome.Ok? ==>
      && s.store == UpsertProvider(st, WithDefaults(p)).0
      && s.manager.providers[p.name].id
           == (if FindProvider(st.providers, p.name).Some? then reportedId else st.nextProviderId)
  {
    if p.name == "" || p.host == "" then Step(Err(Validation), m, st)
    else
      var q := WithDefaults(p);
      if !insertOk then Step(Err(StoreFailure), m, st)
      else
        var existed := FindProvider(st.providers, q.name).Some?;
        var (st', id) := UpsertProvider(st, q);
        var memId := if existed then reportedId else id;
        FindProviderOfRow(st'.providers, q.(id := id));
        Step(Ok(()), m.(providers := m.providers[q.name := q.(id := memId)]), st')
  }

  // ---------------------------------------------------------------- AddDIDs

  /** The rows one bulk insert appends: free, with no destination, tagged with the provider and country. */
  function NewDidRows(dids: seq<string>, p: Provider, country: string): (rows: seq<Did>)
    ensures |rows| == |dids|
    ensures forall i :: 0 <= i < |rows| ==> rows[i] == Did(dids[i], p.id, p.name, false, None, country)
  {
    seq(|dids|, i requires 0 <= i < |dids| => Did(dids[i], p.id, p.name, false, None, country))
  }

  /**
   * `AddDIDs`. The provider must be in memory. The bulk statement has no
   * unique key besides the row id to collide with, so every number becomes a
   * new row, duplicates included. With no numbers the statement has an empty
   * VALUES list, and the store rejects it; a provider id the `providers`
   * table does not hold violates the foreign key.
   */
  function AddDids(m: Manager, st: Store, name: string, dids: seq<string>, country: string, insertOk: bool): (s: Step)
    ensures name !in m.providers ==> s == Step(Err(ProviderNotFound(name)), m, st)
    ensures s.outcome.Err? ==> s.manager == m && s.store == st
    ensures s.outcome.Ok? <==>
      name in m.providers && |dids| > 0 && insertOk && HasProviderId(st.providers, m.providers[name].id)
    ensures s.outcome.Ok? ==>
      && s.manager.providers == m.providers
      && s.manager.providerDids == m.providerDids[name := (if name in m.providerDids then m.providerDids[name] else []) + dids]
      && s.store == st.(dids := st.dids + NewDidRows(dids, m.providers[name], country))
  {
    if name !in m.providers then Step(Err(ProviderNotFound(name)), m, st)
    else
      var p := m.providers[name];
      if |dids| == 0 || !HasProviderId(st.providers, p.id) || !insertOk then Step(Err(StoreFailure), m, st)
      else
        var prior := if name in m.providerDids then m.providerDids[name] else [];
        Step(Ok(()), m.(providerDids := m.providerDids[name := prior + dids]),
             st.(dids := st.dids + NewDidRows(dids, p, country)))
  }

  // ---------------------------------------------------------------- GetAvailableDID

  /** The row belongs to an active provider, named `name` unless `name` is empty. */
  predicate OwnedByActive(ps: seq<Provider>, row: Did, name: string) {
    exists i :: 0 <= i < |ps| && ps[i].id == row.providerId && ps[i].active && (name == "" || ps[i].name == name)
  }

  /** The rows the lease query may return: free, and owned by an eligible provider. */
  predicate Leasable(ps: seq<Provider>, row: Did, name: string) {
    !row.inUse && OwnedByActive(ps, row, name)
  }

  /** The numbers of the leasable rows, in table order. */
  function LeasableDids(ps: seq<Provider>, rows: seq<Did>, name: string): (cands: seq<string>)
    ensures |cands| <= |rows|
    ensures forall i :: 0 <= i < |rows| && Leasable(ps, rows[i], name) ==> rows[i].did in cands
    ensures forall x :: x in cands ==> exists i :: 0 <= i < |rows| && rows[i].did == x && Leasable(ps, rows[i], name)
  {
    if |rows| == 0 then []
    else
      var rest := LeasableDids(ps, rows[1..], name);
      var head := if Leasable(ps, rows[0], name) then [rows[0].did] else [];
      assert forall i :: 1 <= i < |rows| ==> rows[i] == rows[1..][i - 1];
      assert forall x :: x in rest ==> exists i :: 0 <= i < |rows| && rows[i].did == x && Leasable(ps, rows[i], name) by {
        forall x | x in rest ensures exists i :: 0 <= i < |rows| && rows[i].did == x && Leasable(ps, rows[i], name) {
          var i :| 0 <= i < |rows[1..]| && rows[1..][i].did == x && Leasable(ps, rows[1..][i], name);
          assert rows[i + 1] == rows[1..][i];
        }
      }
      head + rest
  }

  /**
   * `GetAvailableDID`: one number from a free row of an active provider named
   * `name` (of any active provider when `name` is empty), chosen by the
   * store at random: `pick` stands for that choice. It only reads.
   */
  function GetAvailableDid(st: Store, name: string, pick: nat): (r: Result<string, Error>)
    ensures r.Err? <==> forall i :: 0 <= i < |st.dids| ==> !Leasable(st.providers, st.dids[i], name)
    ensures r.Err? ==> r.error == NoAvailableDids
    ensures r.Ok? ==> exists i :: 0 <= i < |st.dids| && st.dids[i].did == r.value && Leasable(st.providers, st.dids[i], name)
  {
    var cands := LeasableDids(st.providers, st.dids, name);
    if |cands| == 0 then Err(NoAvailableDids)
    else
      assert cands[pick % |cands|] in cands;
      Ok(cands[pick % |cands|])
  }

  // ---------------------------------------------------------------- LoadProviders

  /** The numbers of the rows owned by provider `id`, in table order (`loadProviderDIDs`). */
  function DidsOf(rows: seq<Did>, id: int): (r: seq<string>)
    ensures |r| <= |rows|
    ensures forall x :: x in r ==> exists i :: 0 <= i < |rows| && rows[i].providerId == id && rows[i].did == x
    ensures forall i :: 0 <= i < |rows| && rows[i].providerId == id ==> rows[i].did in r
  {
    if |rows| == 0 then []
    else
      var rest := DidsOf(rows[1..], id);
      assert forall x :: x in rest ==> exists i :: 0 <= i < |rows| && rows[i].providerId == id && rows[i].did == x by {
        forall x | x in rest ensures exists i :: 0 <= i < |rows| && rows[i].providerId == id && rows[i].did == x {
          var i :| 0 <= i < |rows[1..]| && rows[1..][i].providerId == id && rows[1..][i].did == x;
          assert rows[i + 1] == rows[1..][i];
        }
      }
      assert forall i :: 1 <= i < |rows| ==> rows[i] == rows[1..][i - 1];
      (if rows[0].providerId == id then [rows[0].did] else []) + rest
  }

  /** The names of the active provider rows. */
  function ActiveNames(ps: seq<Provider>): set<string> {
    set i | 0 <= i < |ps| && ps[i].active :: ps[i].name
  }

  /** Every in-memory provider is an active row of `st`, with exactly that row's DID numbers. */
  predicate LoadedFrom(m: Manager, st: Store) {
    && KeyedByName(m)
    && forall k :: k in m.providers ==>
      && m.providers[k].active
      && m.providers[k] in st.providers
      && k in m.providerDids
      && m.providerDids[k] == DidsOf(st.dids, m.providers[k].id)
  }

  /** The loop of `LoadProviders` over the active rows `ps`, each with its `loadProviderDIDs`. */
  function LoadRows(m: Manager, ps: seq<Provider>, st: Store): (r: Manager)
    requires forall i :: 0 <= i < |ps| ==> ps[i] in st.providers
    requires LoadedFrom(m, st)
    ensures LoadedFrom(r, st)
    ensures r.providers.Keys == m.providers.Keys + ActiveNames(ps)
    decreases |ps|
  {
    if |ps| == 0 then
      assert ActiveNames(ps) == {};
      m
    else
      var p := ps[0];
      var m1 := if p.active then Manager(m.providers[p.name := p], m.providerDids[p.name := DidsOf(st.dids, p.id)]) else m;
      var r := LoadRows(m1, ps[1..], st);
      ActiveNamesCons(ps);
      r
  }

  lemma ActiveNamesCons(ps: seq<Provider>)
    requires |ps| > 0
    ensures ActiveNames(ps) == (if ps[0].active then {ps[0].name} else {}) + ActiveNames(ps[1..])
  {
    var p := ps[0];
    forall x | x in ActiveNames(ps) ensures x in (if p.active then {p.name} else {}) + ActiveNames(ps[1..]) {
      var i :| 0 <= i < |ps| && ps[i].active && ps[i].name == x;
      if i > 0 { assert ps[1..][i - 1] == ps[i]; }
    }
    forall x | x in ActiveNames(ps[1..]) ensures x in ActiveNames(ps) {
      var i :| 0 <= i < |ps[1..]| && ps[1..][i].active && ps[1..][i].name == x;
      assert ps[i + 1] == ps[1..][i];
    }
  }

  /**
   * `NewManager` followed by `LoadProviders`: memory holds exactly the active
   * providers of the store, each with the numbers of its DID rows. Rows that
   * fail to scan and a failing query are not modelled.
   */
  function LoadProviders(st: Store): (m: Manager)
    ensures LoadedFrom(m, st)
    ensures m.providers.Keys == ActiveNames(st.providers)
  {
    LoadRows(Manager(map[], map[]), st.providers, st)
  }

  // ---------------------------------------------------------------- lookups

  /** `GetProvider`: the in-memory provider named `name`, or not-found. */
  function GetProvider(m: Manager, name: string): (r: Result<Provider, Error>)
    ensures r.Ok? <==> name in m.providers
    ensures r.Ok? ==> r.value == m.providers[name]
    ensures r.Err? ==> r.error == ProviderNotFound(name)
  {
    if name in m.providers then Ok(m.providers[name]) else Err(ProviderNotFound(name))
  }

  /**
   * `listing` has one entry per in-memory key and holds every in-memory
   * provider, in some order. When the providers are keyed by name
   * (`KeyedByName`) distinct keys hold distinct providers, so each appears
   * exactly once; without it, the predicate alone allows repeats.
   */
  predicate ListingOf(listing: seq<Provider>, m: Manager) {
    && |listing| == |m.providers|
    && (forall i :: 0 <= i < |listing| ==> listing[i] in m.providers.Values)
    && (forall k :: k in m.providers ==> m.providers[k] in listing)
  }

  /** `ListProviders`: the map's values in Go's unspecified iteration order. */
  method ListProviders(m: Manager) returns (listing: seq<Provider>)
    ensures ListingOf(listing, m)
  {
    listing := [];
    var todo := m.providers.Keys;
    ghost var done: set<string> := {};
    while todo != {}
      invariant todo !! done && todo + done == m.providers.Keys
      invariant |listing| == |done|
      invariant forall i :: 0 <= i < |listing| ==> listing[i] in m.providers.Values
      invariant forall k :: k in done ==> m.providers[k] in listing
      decreases |todo|
    {
      var k :| k in todo;
      listing := listing + [m.providers[k]];
      todo := todo - {k};
      done := done + {k};
    }
    assert done == m.providers.Keys;
  }

  // ---------------------------------------------------------------- statistics

  /** DID counts of one provider; `available` is reported as `total - used`. */
  datatype DidCounts = DidCounts(total: int, used: int, available: int)

  datatype ProviderStats = ProviderStats(provider: Provider, didCounts: Option<DidCounts>)

  function CountOwned(rows: seq<Did>, id: int): nat {
    if |rows| == 0 then 0 else (if rows[0].providerId == id then 1 else 0) + CountOwned(rows[1..], id)
  }

  function CountOwnedInUse(rows: seq<Did>, id: int): nat {
    if |rows| == 0 then 0 else (if rows[0].providerId == id && rows[0].inUse then 1 else 0) + CountOwnedInUse(rows[1..], id)
  }

  function CountOwnedFree(rows: seq<Did>, id: int): nat {
    if |rows| == 0 then 0 else (if rows[0].providerId == id && !rows[0].inUse then 1 else 0) + CountOwnedFree(rows[1..], id)
  }

  /** `total_dids - used_dids` is the number of the provider's rows that are free. */
  lemma {:induction false} AvailableIsFree(rows: seq<Did>, id: int)
    ensures CountOwned(rows, id) - CountOwnedInUse(rows, id) == CountOwnedFree(rows, id)
    decreases |rows|
  {
    if |rows| > 0 {
      AvailableIsFree(rows[1..], id);
    }
  }

  /**
   * The DID part of `GetProviderStats`. The `SUM` over no rows is NULL and
   * does not scan into an integer, so a provider without DID rows gets no
   * counts at all.
   */
  function ProviderDidCounts(rows: seq<Did>, id: int): (r: Option<DidCounts>)
    ensures r.None? <==> forall i :: 0 <= i < |rows| ==> rows[i].providerId != id
    ensures r.Some? ==> r.value.total == CountOwned(rows, id) > 0 && r.value.used == CountOwnedInUse(rows, id)
    ensures r.Some? ==> r.value.available == r.value.total - r.value.used == CountOwnedFree(rows, id)
  {
    var total := CountOwned(rows, id);
    NoOwnedRowsIffZero(rows, id);
    if total == 0 then None
    else
      AvailableIsFree(rows, id);
      Some(DidCounts(total, CountOwnedInUse(rows, id), total - CountOwnedInUse(rows, id)))
  }

  /** A provider has no counted rows exactly when no row names it. */
  lemma {:induction false} NoOwnedRowsIffZero(rows: seq<Did>, id: int)
    ensures CountOwned(rows, id) == 0 <==> forall i :: 0 <= i < |rows| ==> rows[i].providerId != id
    decreases |rows|
  {
    if |rows| > 0 {
      NoOwnedRowsIffZero(rows[1..], id);
      assert forall i :: 1 <= i < |rows| ==> rows[i] == rows[1..][i - 1];
    }
  }

  /**
   * `GetProviderStats`: not-found for a name not in memory; otherwise the
   * provider and, when its rows can be counted, its DID counts. `countOk`
   * says whether the count query runs; when it fails the counts are left
   * out just as for a provider without rows. The same-day call counts
   * depend on the calendar date and are not modelled.
   */
  function GetProviderStats(m: Manager, st: Store, name: string, countOk: bool): (r: Result<ProviderStats, Error>)
    ensures r.Err? <==> name !in m.providers
    ensures r.Err? ==> r.error == ProviderNotFound(name)
    ensures r.Ok? ==> r.value.provider == m.providers[name]
    ensures r.Ok? && countOk ==> r.value.didCounts == ProviderDidCounts(st.dids, m.providers[name].id)
    ensures r.Ok? && !countOk ==> r.value.didCounts.None?
  {
    match GetProvider(m, name)
    case Err(e) => Err(e)
    case Ok(p) => Ok(ProviderStats(p, if countOk then ProviderDidCounts(st.dids, p.id) else None))
  }
}

=== FILE: router.dfy ===
/**
 * The call router: the in-memory call index (`activeCalls` by call id) and
 * the correlation index (`didToCall`, leased number to call id), kept next to
 * the store. The incoming and return legs hold the router's lock for their
 * whole body, so each is one atomic step from a state to a state; the
 * reclaim sweep takes no lock and is modelled as one step as well.
 */
module Router {
  import opened Wrappers
  import opened Models
  import opened Store
  import opened GoStrings
  import opened ProviderManager
  import opened CallStore

  /** The next hop every return leg is sent to. */
  const ReturnTrunk: string := "trunk-s4"

  datatype RouterState = RouterState(
    activeCalls: map<string, CallRecord>,
    didToCall: map<string, string>)

  /**
   * Every call id the correlation index points at has a record in memory.
   * Both maps are written together and neither ever loses an entry, so the
   * record lookup of a return leg after a correlation hit always succeeds.
   */
  predicate Inv(r: RouterState) {
    forall d :: d in r.didToCall ==> r.didToCall[d] in r.activeCalls
  }

  /** The outcome of a routing operation and the state it leaves behind. */
  datatype RouteStep = RouteStep(result: Result<CallResponse, Error>, store: Store, router: RouterState)

  // ---------------------------------------------------------------- incoming leg

  /**
   * What the environment decides during an incoming call: the order in
   * which `ListProviders` returned the providers, the store's random picks
   * for the scoped and the any-provider lease, which row the owner query
   * returns first, and whether the owner query, `markDIDInUse` and
   * `storeCallRecord` succeed.
   */
  datatype IncomingChoices = IncomingChoices(
    listing: seq<Provider>,
    scopedPick: nat,
    anyPick: nat,
    ownerPick: nat,
    ownerQueryOk: bool,
    markOk: bool,
    insertOk: bool)

  /** `selectProvider`: the first provider of the listing, or no name when none is loaded. */
  function SelectProvider(listing: seq<Provider>): (r: string)
    ensures |listing| == 0 ==> r == ""
    ensures r == "" || exists i :: 0 <= i < |listing| && listing[i].name == r
  {
    if |listing| == 0 then "" else listing[0].name
  }

  /** A provider-scoped lease attempt with one fallback to any active provider. */
  function LeaseDid(st: Store, selected: string, scopedPick: nat, anyPick: nat): (r: Result<string, Error>)
    ensures r.Err? <==> GetAvailableDid(st, selected, scopedPick).Err? && GetAvailableDid(st, "", anyPick).Err?
    ensures r.Err? ==> r.error == NoAvailableDids
    ensures GetAvailableDid(st, selected, scopedPick).Ok? ==> r == GetAvailableDid(st, selected, scopedPick)
    ensures GetAvailableDid(st, selected, scopedPick).Err? ==> r == GetAvailableDid(st, "", anyPick)
  {
    var scoped := GetAvailableDid(st, selected, scopedPick);
    if scoped.Ok? then scoped else GetAvailableDid(st, "", anyPick)
  }

  /** The providers the owner query joins to the rows carrying `did`, in row order. */
  function JoinOwners(ps: seq<Provider>, rows: seq<Did>, did: string): (r: seq<Provider>)
    ensures forall p :: p in r ==> p in ps && exists i :: 0 <= i < |rows| && rows[i].did == did && rows[i].providerId == p.id
    ensures (exists i :: 0 <= i < |rows| && rows[i].did == did && HasProviderId(ps, rows[i].providerId)) ==> |r| > 0
  {
    if |rows| == 0 then []
    else
      var rest := JoinOwners(ps, rows[1..], did);
      var head := if rows[0].did == did then (match ProviderById(ps, rows[0].providerId) case Some(p) => [p] case None => []) else [];
      assert forall i :: 1 <= i < |rows| ==> rows[i] == rows[1..][i - 1];
      assert forall p :: p in rest ==> exists i :: 0 <= i < |rows| && rows[i].did == did && rows[i].providerId == p.id by {
        forall p | p in rest ensures exists i :: 0 <= i < |rows| && rows[i].did == did && rows[i].providerId == p.id {
          var i :| 0 <= i < |rows[1..]| && rows[1..][i].did == did && rows[1..][i].providerId == p.id;
          assert rows[i + 1] == rows[1..][i];
        }
      }
      head + rest
  }

  /** `p` is a provider row joined to some row carrying `did`. */
  predicate OwnerOf(st: Store, did: string, p: Provider) {
    p in st.providers && exists i :: 0 <= i < |st.dids| && st.dids[i].did == did && st.dids[i].providerId == p.id
  }

  /**
   * The provider (id, name) reported for a leased number: the first row of
   * the owner query, or (0, "") when the query fails or returns nothing.
   */
  function LookupOwner(st: Store, did: string, pick: nat, queryOk: bool): (r: (int, string))
    ensures r != (0, "") ==> queryOk && exists p :: OwnerOf(st, did, p) && p.id == r.0 && p.name == r.1
    ensures !queryOk ==> r == (0, "")
    ensures queryOk && (exists i :: 0 <= i < |st.dids| && st.dids[i].did == did && HasProviderId(st.providers, st.dids[i].providerId))
      ==> exists p :: p in st.providers && p.id == r.0 && p.name == r.1
  {
    var owners := JoinOwners(st.providers, st.dids, did);
    if !queryOk || |owners| == 0 then (0, "")
    else
      var p := owners[pick % |owners|];
      assert p in owners;
      (p.id, p.name)
  }

  /** The response of a routed incoming leg: the DID becomes the DNIS to send, the dialled number the ANI. */
  function RoutedResponse(did: string, dnis: string, providerName: string): (resp: CallResponse)
    ensures resp.didAssigned == did && resp.dnisToSend == did && resp.aniToSend == dnis
    ensures resp.trunkName == "trunk-" + providerName && resp.nextHop == resp.trunkName
    ensures resp.providerName == providerName && resp.status == "success"
  {
    var trunk := "trunk-" + providerName;
    CallResponse("success", did, trunk, dnis, did, providerName, trunk)
  }

  /**
   * The steps of `ProcessIncomingCall` after a number is leased and its
   * owner looked up: every row with that number is marked in use for
   * `dnis`; the call is recorded as ACTIVE in memory, overwriting a record
   * with the same id, and correlated with the number; the record is written
   * to the store when `insertOk` (a failure there is ignored).
   */
  function Routed(st: Store, r: RouterState, callId: string, ani: string, dnis: string, now: int,
                  did: string, owner: (int, string), insertOk: bool): (out: RouteStep)
    ensures out.result == Ok(RoutedResponse(did, dnis, owner.1))
    ensures out.router.activeCalls == r.activeCalls[callId := CallRecord(callId, ani, dnis, did, owner.0, owner.1, Active, now, None, 0)]
    ensures out.router.didToCall == r.didToCall[did := callId]
    ensures Inv(r) ==> Inv(out.router)
    ensures out.store.providers == st.providers && out.store.nextProviderId == st.nextProviderId
    ensures out.store.dids == MarkInUse(st.dids, did, dnis)
    ensures insertOk ==> out.store.calls == UpsertCall(st.calls, CallRecord(callId, ani, dnis, did, owner.0, owner.1, Active, now, None, 0))
    ensures !insertOk ==> out.store.calls == st.calls
  {
    var rec := CallRecord(callId, ani, dnis, did, owner.0, owner.1, Active, now, None, 0);
    var marked := st.(dids := MarkInUse(st.dids, did, dnis));
    var stored := if insertOk then marked.(calls := UpsertCall(st.calls, rec)) else marked;
    RouteStep(Ok(RoutedResponse(did, dnis, owner.1)), stored,
              RouterState(r.activeCalls[callId := rec], r.didToCall[did := callId]))
  }

  /** A leasable row of an active provider carries `did`. */
  predicate FreeSomewhere(st: Store, did: string) {
    exists i :: 0 <= i < |st.dids| && st.dids[i].did == did && Leasable(st.providers, st.dids[i], "")
  }

  /** A scoped lease is also an any-provider lease. */
  lemma LeasedIsFree(st: Store, selected: string, scopedPick: nat, anyPick: nat)
    requires LeaseDid(st, selected, scopedPick, anyPick).Ok?
    ensures FreeSomewhere(st, LeaseDid(st, selected, scopedPick, anyPick).value)
  {
    var did := LeaseDid(st, selected, scopedPick, anyPick).value;
    if GetAvailableDid(st, selected, scopedPick).Ok? {
      var i :| 0 <= i < |st.dids| && st.dids[i].did == did && Leasable(st.providers, st.dids[i], selected);
      assert Leasable(st.providers, st.dids[i], "");
    }
  }

  /**
   * `ProcessIncomingCall`: select a provider, lease a DID (scoped, then any
   * active provider), look up the number's owner, mark the number in use
   * and record the call. It runs out of numbers exactly when no free row of
   * any active provider exists, and then nothing changes.
   */
  function ProcessIncoming(st: Store, r: RouterState, m: Manager, callId: string, ani: string, dnis: string,
                           now: int, ch: IncomingChoices): (out: RouteStep)
    requires ListingOf(ch.listing, m)
    ensures out.result == Err(NoAvailableDids) <==> forall i :: 0 <= i < |st.dids| ==> !Leasable(st.providers, st.dids[i], "")
    ensures out.result.Err? ==> out.store == st && out.router == r
    ensures out.result.Err? ==> out.result.error == NoAvailableDids || (out.result.error == StoreFailure && !ch.markOk)
    ensures out.result.Ok? ==> ch.markOk
    ensures !ch.markOk && LeaseDid(st, SelectProvider(ch.listing), ch.scopedPick, ch.anyPick).Ok? ==>
      out == RouteStep(Err(StoreFailure), st, r)
    ensures Inv(r) ==> Inv(out.router)
    ensures out.result.Ok? ==>
      var d := out.result.value.didAssigned;
      && FreeSomewhere(st, d)
      && (GetAvailableDid(st, SelectProvider(ch.listing), ch.scopedPick).Ok? ==>
            d == GetAvailableDid(st, SelectProvider(ch.listing), ch.scopedPick).value)
      && out == Routed(st, r, callId, ani, dnis, now, d, LookupOwner(st, d, ch.ownerPick, ch.ownerQueryOk), ch.insertOk)
  {
    var lease := LeaseDid(st, SelectProvider(ch.listing), ch.scopedPick, ch.anyPick);
    if lease.Err? then RouteStep(Err(NoAvailableDids), st, r)
    else
      var did := lease.value;
      LeasedIsFree(st, SelectProvider(ch.listing), ch.scopedPick, ch.anyPick);
      var owner := LookupOwner(st, did, ch.ownerPick, ch.ownerQueryOk);
      if !ch.markOk then RouteStep(Err(StoreFailure), st, r)
      else Routed(st, r, callId, ani, dnis, now, did, owner, ch.insertOk)
  }

  // ---------------------------------------------------------------- return leg

  /**
   * What the environment decides during a return leg: the store's choice
   * among equally recent records, whether the store lookup of the call runs
   * (a failing query or scan is reported like a miss), and whether the
   * status update succeeds.
   */
  datatype ReturnChoices = ReturnChoices(latestPick: nat, lookupOk: bool, updateOk: bool)

  /** The response of a return leg: the original caller and dialled number, sent to the return trunk. */
  function ReturnResponse(rec: CallRecord): (resp: CallResponse)
    ensures resp.aniToSend == rec.originalAni && resp.dnisToSend == rec.originalDnis
    ensures resp.nextHop == ReturnTrunk && resp.status == "success"
    ensures resp.didAssigned == "" && resp.providerName == "" && resp.trunkName == ""
  {
    CallResponse("success", "", ReturnTrunk, rec.originalAni, rec.originalDnis, "", "")
  }

  /** A record read back by one of the router's SELECTs: `end_time` and `duration` are not selected. */
  function Scanned(rec: CallRecord): CallRecord {
    rec.(endTime := None, duration := 0)
  }

  /**
   * `ProcessReturnCall`: trim the number, find the call in memory or else in
   * the store (then remember it in memory; a failing store lookup is
   * answered like a miss, with no active call), set its stored status to
   * RETURNED (the memory record keeps its status; a failed update is
   * ignored) and answer with the original caller/dialled pair. `ani2` plays
   * no part in the result.
   */
  function ProcessReturn(st: Store, r: RouterState, ani2: string, did: string, now: int, ch: ReturnChoices): (out: RouteStep)
    requires Inv(r)
    ensures Inv(out.router)
    ensures out.store.providers == st.providers && out.store.dids == st.dids && out.store.nextProviderId == st.nextProviderId
    ensures out.result.Err? <==>
      && TrimSpace(did) !in r.didToCall
      && (!ch.lookupOk || forall i :: 0 <= i < |st.calls| ==> !ReturnMatchable(st.calls[i], TrimSpace(did), now))
    ensures out.result.Err? ==> out == RouteStep(Err(NoActiveCall(TrimSpace(did))), st, r)
    ensures TrimSpace(did) in r.didToCall ==> out == MarkReturned(st, r, TrimSpace(did), now, ch.updateOk)
    ensures TrimSpace(did) !in r.didToCall && out.result.Ok? ==>
      var rec := LatestCallForDid(st.calls, TrimSpace(did), now, ch.latestPick).value;
      && rec in st.calls && ReturnMatchable(rec, TrimSpace(did), now)
      && (forall j :: 0 <= j < |st.calls| && ReturnMatchable(st.calls[j], TrimSpace(did), now) ==> st.calls[j].startTime <= rec.startTime)
      && out == MarkReturned(st, Remembered(r, rec), TrimSpace(did), now, ch.updateOk)
  {
    var d := TrimSpace(did);
    if d in r.didToCall then
      MarkReturned(st, r, d, now, ch.updateOk)
    else if !ch.lookupOk then
      RouteStep(Err(NoActiveCall(d)), st, r)
    else
      match LatestCallForDid(st.calls, d, now, ch.latestPick)
      case None => RouteStep(Err(NoActiveCall(d)), st, r)
      case Some(rec) => MarkReturned(st, Remembered(r, rec), d, now, ch.updateOk)
  }

  /** A record fetched from the store on a memory miss is put back into both maps. */
  function Remembered(r: RouterState, rec: CallRecord): (r': RouterState)
    ensures Inv(r) ==> Inv(r')
    ensures rec.assignedDid in r'.didToCall && r'.didToCall[rec.assignedDid] == rec.callId
    ensures r'.activeCalls.Keys == r.activeCalls.Keys + {rec.callId}
    ensures r'.activeCalls[rec.callId] == Scanned(rec)
  {
    RouterState(r.activeCalls[rec.callId := Scanned(rec)], r.didToCall[rec.assignedDid := rec.callId])
  }

  /** The common tail of a return leg once `d` is correlated in memory. */
  function MarkReturned(st: Store, r: RouterState, d: string, now: int, updateOk: bool): (out: RouteStep)
    requires Inv(r) && d in r.didToCall
    ensures out.router == r
    ensures out.store.providers == st.providers && out.store.dids == st.dids && out.store.nextProviderId == st.nextProviderId
    ensures out.result == Ok(ReturnResponse(r.activeCalls[r.didToCall[d]]))
    ensures out.store == (if updateOk then st.(calls := UpdateCallStatus(st.calls, r.didToCall[d], Returned, now)) else st)
  {
    var callId := r.didToCall[d];
    var rec := r.activeCalls[callId];
    var st' := if updateOk then st.(calls := UpdateCallStatus(st.calls, callId, Returned, now)) else st;
    RouteStep(Ok(ReturnResponse(rec)), st', r)
  }

  // ---------------------------------------------------------------- restore at start-up

  function RestorableIds(rows: seq<CallRecord>, now: int): set<string> {
    set i | 0 <= i < |rows| && Restorable(rows[i], now) :: rows[i].callId
  }

  function RestorableDids(rows: seq<CallRecord>, now: int): set<string> {
    set i | 0 <= i < |rows| && Restorable(rows[i], now) :: rows[i].assignedDid
  }

  /**
   * The loop of `restoreActiveCalls` over the rows in the order the store
   * returns them: each restorable row is put in memory and correlated with
   * its DID, a later row winning over an earlier one with the same number.
   */
  function RestoreRows(r: RouterState, rows: seq<CallRecord>, now: int): (r': RouterState)
    ensures Inv(r) ==> Inv(r')
    ensures r'.activeCalls.Keys == r.activeCalls.Keys + RestorableIds(rows, now)
    ensures r'.didToCall.Keys == r.didToCall.Keys + RestorableDids(rows, now)
    decreases |rows|
  {
    if |rows| == 0 then r
    else
      var init := rows[..|rows| - 1];
      var rec := rows[|rows| - 1];
      var r0 := RestoreRows(r, init, now);
      RestorableSnoc(rows, now);
      RestoreOne(r0, rec, now)
  }

  lemma RestorableSnoc(rows: seq<CallRecord>, now: int)
    requires |rows| > 0
    ensures
      var init := rows[..|rows| - 1];
      var rec := rows[|rows| - 1];
      && RestorableIds(rows, now) == RestorableIds(init, now) + (if Restorable(rec, now) then {rec.callId} else {})
      && RestorableDids(rows, now) == RestorableDids(init, now) + (if Restorable(rec, now) then {rec.assignedDid} else {})
  {
    var init := rows[..|rows| - 1];
    assert forall i :: 0 <= i < |init| ==> init[i] == rows[i];
  }

  /** One step of the restore loop: a restorable row is put in memory and correlated with its DID. */
  function RestoreOne(r: RouterState, rec: CallRecord, now: int): (r': RouterState)
    ensures Inv(r) ==> Inv(r')
    ensures !Restorable(rec, now) ==> r' == r
    ensures Restorable(rec, now) ==>
      && r'.activeCalls == r.activeCalls[rec.callId := Scanned(rec)]
      && r'.didToCall == r.didToCall[rec.assignedDid := rec.callId]
  {
    if Restorable(rec, now) then
      RouterState(r.activeCalls[rec.callId := Scanned(rec)], r.didToCall[rec.assignedDid := rec.callId])
    else r
  }

  /**
   * `NewRouter`: empty maps, then the restore from the store at time `now`.
   * `queryOk` says whether the restore query runs; when it fails the router
   * starts with nothing in memory.
   */
  function NewRouter(st: Store, now: int, queryOk: bool): (r: RouterState)
    ensures Inv(r)
    ensures queryOk ==> r.activeCalls.Keys == RestorableIds(st.calls, now)
    ensures queryOk ==> r.didToCall.Keys == RestorableDids(st.calls, now)
    ensures !queryOk ==> |r.activeCalls| == 0 && |r.didToCall| == 0
  {
    if queryOk then RestoreRows(RouterState(map[], map[]), st.calls, now)
    else RouterState(map[], map[])
  }

  // ---------------------------------------------------------------- statistics

  /** The DID and call counters of `GetStatistics` that do not depend on the calendar date. */
  datatype RouterStats = RouterStats(activeCalls: int, totalDids: int, usedDids: int, availableDids: int)

  function CountInUse(rows: seq<Did>): nat {
    if |rows| == 0 then 0 else (if rows[0].inUse then 1 else 0) + CountInUse(rows[1..])
  }

  function CountFree(rows: seq<Did>): nat {
    if |rows| == 0 then 0 else (if rows[0].inUse then 0 else 1) + CountFree(rows[1..])
  }

  lemma {:induction false} UsedPlusFree(rows: seq<Did>)
    ensures CountInUse(rows) + CountFree(rows) == |rows|
    decreases |rows|
  {
    if |rows| > 0 {
      UsedPlusFree(rows[1..]);
    }
  }

  /**
   * `GetStatistics`: `active_calls` is the size of the in-memory call index
   * (which only grows), and `available_dids` is `total_dids - used_dids`,
   * which is the number of free DID rows. With no rows the `SUM` is NULL and
   * `used_dids` stays 0. `queryOk` says whether the DID count query runs;
   * its error is ignored, so on failure all three DID counters are 0.
   */
  function Statistics(r: RouterState, st: Store, queryOk: bool): (s: RouterStats)
    ensures s.activeCalls == |r.activeCalls|
    ensures queryOk ==> s.totalDids == |st.dids| && s.availableDids == CountFree(st.dids)
    ensures !queryOk ==> s.totalDids == 0 && s.usedDids == 0 && s.availableDids == 0
    ensures s.usedDids + s.availableDids == s.totalDids
  {
    if !queryOk then RouterStats(|r.activeCalls|, 0, 0, 0)
    else
      UsedPlusFree(st.dids);
      var used := CountInUse(st.dids);
      RouterStats(|r.activeCalls|, |st.dids|, used, |st.dids| - used)
  }
}

=== FILE: router_properties.dfy ===
/**
 * Properties that relate several router operations: the incoming/return
 * round trip, what the reclaim sweep does to leases and to return matching,
 * recovery after a restart, and the behaviour the code shows for a reused
 * call id and for a return after a sweep.
 */
module RouterProperties {
  import opened Wrappers
  import opened Models
  import opened Store
  import opened Seqs
  import opened GoStrings
  import opened ProviderManager
  import opened CallStore
  import opened Router
  import opened ManagerProperties

  // ---------------------------------------------------------------- incoming then return

  /**
   * A return leg bearing the DID an incoming leg was given (with any
   * surrounding white space) restores that leg's caller and dialled number,
   * whatever ANI2 it carries, and leaves the in-memory maps as they were.
   * When the call id was new to the store and both writes succeeded, the
   * stored record ends up RETURNED.
   */
  lemma IncomingThenReturn(st: Store, r: RouterState, m: Manager, callId: string, ani: string, dnis: string,
                           now: int, ch: IncomingChoices, ani2: string, did: string, now2: int, ch2: ReturnChoices)
    requires Inv(r) && ListingOf(ch.listing, m)
    ensures
      var s1 := ProcessIncoming(st, r, m, callId, ani, dnis, now, ch);
      var s2 := ProcessReturn(s1.store, s1.router, ani2, did, now2, ch2);
      s1.result.Ok? && TrimSpace(did) == s1.result.value.didAssigned ==>
        && s2.result == Ok(CallResponse("success", "", "trunk-s4", ani, dnis, "", ""))
        && s2.router == s1.router
        && (ch.insertOk && ch2.updateOk && FindCall(st.calls, callId).None? ==>
              |s2.store.calls| == |st.calls| + 1 && s2.store.calls[|st.calls|].status == Returned
                && s2.store.calls[|st.calls|].callId == callId)
  {
    var s1 := ProcessIncoming(st, r, m, callId, ani, dnis, now, ch);
    if s1.result.Ok? && TrimSpace(did) == s1.result.value.didAssigned {
      var d := s1.result.value.didAssigned;
      assert s1.router.didToCall[d] == callId;
      assert s1.router.activeCalls[callId].originalAni == ani;
      var s2 := ProcessReturn(s1.store, s1.router, ani2, did, now2, ch2);
      if ch.insertOk && ch2.updateOk && FindCall(st.calls, callId).None? {
        assert s1.store.calls == st.calls + [s1.router.activeCalls[callId]];
        assert s1.store.calls[|st.calls|].callId == callId;
      }
    }
  }

  /** The return leg answers the same for every ANI2. */
  lemma ReturnIgnoresAni2(st: Store, r: RouterState, a: string, b: string, did: string, now: int, ch: ReturnChoices)
    requires Inv(r)
    ensures ProcessReturn(st, r, a, did, now, ch) == ProcessReturn(st, r, b, did, now, ch)
  {
  }

  /** White space around the DID of a return leg makes no difference. */
  lemma ReturnTrimsDid(st: Store, r: RouterState, ani2: string, did: string, now: int, ch: ReturnChoices)
    requires Inv(r)
    ensures ProcessReturn(st, r, ani2, did, now, ch) == ProcessReturn(st, r, ani2, TrimSpace(did), now, ch)
  {
    TrimSpaceIdempotent(did);
  }

  /**
   * The trunk of a routed call is named after a provider joined to the
   * leased number when the owner query succeeds, and is the bare "trunk-"
   * with no provider name when it fails.
   */
  lemma TrunkNamesOwner(st: Store, r: RouterState, m: Manager, callId: string, ani: string, dnis: string,
                        now: int, ch: IncomingChoices)
    requires Valid(st) && ListingOf(ch.listing, m)
    ensures
      var out := ProcessIncoming(st, r, m, callId, ani, dnis, now, ch).result;
      out.Ok? ==>
        && (ch.ownerQueryOk ==> exists p :: OwnerOf(st, out.value.didAssigned, p) && out.value.trunkName == "trunk-" + p.name
                                           && out.value.providerName == p.name)
        && (!ch.ownerQueryOk ==> out.value.trunkName == "trunk-" && out.value.providerName == "")
  {
    var out := ProcessIncoming(st, r, m, callId, ani, dnis, now, ch).result;
    if out.Ok? {
      var resp := out.value;
      var d := resp.didAssigned;
      var owner := LookupOwner(st, d, ch.ownerPick, ch.ownerQueryOk);
      assert resp.providerName == owner.1;
      if ch.ownerQueryOk {
        var i :| 0 <= i < |st.dids| && st.dids[i].did == d && Leasable(st.providers, st.dids[i], "");
        assert HasProviderId(st.providers, st.dids[i].providerId);
        var p :| p in st.providers && p.id == owner.0 && p.name == owner.1;
        assert owner != (0, "");
      } else {
        assert "trunk-" + "" == "trunk-";
      }
    }
  }

  /** Routing a call keeps the store's key constraints. */
  lemma {:induction false} IncomingKeepsStoreValid(st: Store, r: RouterState, m: Manager, callId: string, ani: string, dnis: string,
                                now: int, ch: IncomingChoices)
    requires Valid(st) && ListingOf(ch.listing, m)
    ensures Valid(ProcessIncoming(st, r, m, callId, ani, dnis, now, ch).store)
  {
    var out := ProcessIncoming(st, r, m, callId, ani, dnis, now, ch);
    if out.result.Ok? {
      var d := out.result.value.didAssigned;
      RoutedKeepsStoreValid(st, r, callId, ani, dnis, now, d, LookupOwner(st, d, ch.ownerPick, ch.ownerQueryOk), ch.insertOk);
    }
  }

  lemma {:induction false} RoutedKeepsStoreValid(st: Store, r: RouterState, callId: string, ani: string, dnis: string, now: int,
                                                 did: string, owner: (int, string), insertOk: bool)
    requires Valid(st)
    ensures Valid(Routed(st, r, callId, ani, dnis, now, did, owner, insertOk).store)
  {
    var out := Routed(st, r, callId, ani, dnis, now, did, owner, insertOk).store;
    var marked := MarkInUse(st.dids, did, dnis);
    assert out.dids == marked && out.providers == st.providers && out.nextProviderId == st.nextProviderId;
    assert forall i :: 0 <= i < |marked| ==> marked[i].providerId == st.dids[i].providerId;
  }

  /** A return leg keeps the store's key constraints. */
  lemma ReturnKeepsStoreValid(st: Store, r: RouterState, ani2: string, did: string, now: int, ch: ReturnChoices)
    requires Valid(st) && Inv(r)
    ensures Valid(ProcessReturn(st, r, ani2, did, now, ch).store)
  {
    var out := ProcessReturn(st, r, ani2, did, now, ch);
    assert out.store.providers == st.providers && out.store.dids == st.dids;
    assert |out.store.calls| == |st.calls|;
    assert forall i :: 0 <= i < |st.calls| ==> out.store.calls[i].callId == st.calls[i].callId;
  }

  // ---------------------------------------------------------------- the reclaim sweep

  /**
   * A call left ACTIVE or FORWARDED for more than ten minutes is failed by
   * the sweep, and every row carrying its DID is freed with no destination,
   * so the number can be leased again by a provider that owns it.
   */
  lemma SweptDidIsReleased(st: Store, now: int, k: int, i: int, name: string)
    requires 0 <= k < |st.calls| && Sweepable(st.calls[k], now)
    requires 0 <= i < |st.dids| && st.dids[i].did == st.calls[k].assignedDid
    ensures
      var swept := CleanupStaleCalls(st, now, true, true);
      && swept.calls[k].status == CallState.Failed && swept.calls[k].endTime == Some(now)
      && !swept.dids[i].inUse && swept.dids[i].destination.None?
      && (OwnedByActive(st.providers, st.dids[i], name) ==>
            exists pick: nat :: GetAvailableDid(swept, name, pick) == Ok(st.calls[k].assignedDid))
  {
    var (calls, n) := FailStaleCalls(st.calls, now);
    assert calls[k] == FailedAt(st.calls[k], now);
    assert RecentlyFailed(calls, st.dids[i].did, now);
    var swept := CleanupStaleCalls(st, now, true, true);
    assert swept.dids == ReleaseFailedDids(st.dids, calls, now);
    if OwnedByActive(st.providers, st.dids[i], name) {
      assert Leasable(swept.providers, swept.dids[i], name);
      EveryLeasableReachable(swept, name, i);
    }
  }

  /**
   * The release is keyed on the number, not on the call that holds it: a
   * FAILED record that ended less than a minute ago frees every row of its
   * number as soon as any other call is swept, even when a later call that
   * is still ACTIVE and not stale holds that number. After the sweep the
   * live call keeps its record while its number is leasable again, so two
   * calls can end up on one DID.
   */
  lemma SweepFreesLiveCallsDid(st: Store, now: int, failed: int, live: int, stale: int, i: int)
    requires 0 <= failed < |st.calls| && 0 <= live < |st.calls| && 0 <= stale < |st.calls|
    requires st.calls[failed].status == CallState.Failed && st.calls[failed].endTime.Some?
    requires st.calls[failed].endTime.value > now - ReleaseWindow
    requires st.calls[live].status == Active && st.calls[live].startTime >= now - StaleWindow
    requires st.calls[live].assignedDid == st.calls[failed].assignedDid
    requires Sweepable(st.calls[stale], now)
    requires 0 <= i < |st.dids| && st.dids[i].did == st.calls[live].assignedDid
    ensures
      var swept := CleanupStaleCalls(st, now, true, true);
      && swept.calls[live] == st.calls[live]
      && !swept.dids[i].inUse && swept.dids[i].destination.None?
  {
    var (calls, n) := FailStaleCalls(st.calls, now);
    assert calls[failed] == st.calls[failed];
    assert RecentlyFailed(calls, st.dids[i].did, now);
    assert n > 0;
  }

  /**
   * No record is both sweepable and matchable by a return leg (strictly
   * older than ten minutes versus strictly younger), so a sweep at `now`
   * does not change which record a return leg at `now` is matched to.
   */
  lemma SweepKeepsReturnMatching(st: Store, now: int, updateOk: bool, releaseOk: bool, did: string, pick: nat)
    ensures LatestCallForDid(CleanupStaleCalls(st, now, updateOk, releaseOk).calls, did, now, pick)
         == LatestCallForDid(st.calls, did, now, pick)
  {
    var calls := CleanupStaleCalls(st, now, updateOk, releaseOk).calls;
    var f := (rec: CallRecord) => ReturnMatchable(rec, did, now);
    FilterAgrees(st.calls, calls, f);
  }

  /** A second sweep at the same instant finds nothing to fail and changes nothing. */
  lemma SweepIdempotent(st: Store, now: int, releaseOk: bool, updateOk2: bool, releaseOk2: bool)
    ensures
      var once := CleanupStaleCalls(st, now, true, releaseOk);
      CleanupStaleCalls(once, now, updateOk2, releaseOk2) == once
  {
    var once := CleanupStaleCalls(st, now, true, releaseOk);
    assert forall i :: 0 <= i < |once.calls| ==> !Sweepable(once.calls[i], now);
    var (again, n) := FailStaleCalls(once.calls, now);
    assert again == once.calls;
  }

  /** Sweeping keeps the store's key constraints. */
  lemma SweepKeepsStoreValid(st: Store, now: int, updateOk: bool, releaseOk: bool)
    requires Valid(st)
    ensures Valid(CleanupStaleCalls(st, now, updateOk, releaseOk))
  {
    var out := CleanupStaleCalls(st, now, updateOk, releaseOk);
    assert forall i :: 0 <= i < |out.calls| ==> out.calls[i].callId == st.calls[i].callId;
    assert forall i :: 0 <= i < |out.dids| ==> out.dids[i].providerId == st.dids[i].providerId;
  }

  /**
   * The sweep leaves the in-memory maps alone and the status update has no
   * state-order check: a return leg on a swept call's DID still resolves
   * from memory and moves the stored FAILED record to RETURNED, keeping the
   * end time the sweep stamped.
   */
  lemma ReturnAfterSweepResurrects(st: Store, r: RouterState, ani2: string, d: string, now: int, k: int)
    requires Inv(r) && UniqueCallIds(st.calls)
    requires TrimSpace(d) == d && d in r.didToCall
    requires 0 <= k < |st.calls| && st.calls[k].callId == r.didToCall[d] && Sweepable(st.calls[k], now)
    ensures
      var swept := CleanupStaleCalls(st, now, true, true);
      var out := ProcessReturn(swept, r, ani2, d, now, ReturnChoices(0, true, true));
      && swept.calls[k].status == CallState.Failed
      && out.result == Ok(ReturnResponse(r.activeCalls[r.didToCall[d]]))
      && out.store.calls[k].status == Returned
      && out.store.calls[k].endTime == Some(now)
  {
    var swept := CleanupStaleCalls(st, now, true, true);
    assert swept.calls[k] == FailedAt(st.calls[k], now);
    assert swept.calls[k].callId == r.didToCall[d];
  }

  // ---------------------------------------------------------------- reused call ids

  /**
   * Nothing rejects a call id that is already in memory: routing a second
   * call under the same id re-points the id at the new record, so a return
   * leg on the first call's DID restores the second call's caller and
   * dialled number.
   */
  lemma ReusedCallIdRedirectsFirstDid(st: Store, r: RouterState, m: Manager, callId: string,
                                      ani1: string, dnis1: string, now1: int, ch1: IncomingChoices,
                                      ani2: string, dnis2: string, now2: int, ch2: IncomingChoices,
                                      anyAni: string, now3: int, ch3: ReturnChoices)
    requires Inv(r) && ListingOf(ch1.listing, m) && ListingOf(ch2.listing, m)
    ensures
      var s1 := ProcessIncoming(st, r, m, callId, ani1, dnis1, now1, ch1);
      var s2 := ProcessIncoming(s1.store, s1.router, m, callId, ani2, dnis2, now2, ch2);
      && s1.result.Ok? && s2.result.Ok?
      && TrimSpace(s1.result.value.didAssigned) == s1.result.value.didAssigned
      && s1.result.value.didAssigned != s2.result.value.didAssigned
      ==> ProcessReturn(s2.store, s2.router, anyAni, s1.result.value.didAssigned, now3, ch3).result
          == Ok(CallResponse("success", "", "trunk-s4", ani2, dnis2, "", ""))
  {
    var s1 := ProcessIncoming(st, r, m, callId, ani1, dnis1, now1, ch1);
    var s2 := ProcessIncoming(s1.store, s1.router, m, callId, ani2, dnis2, now2, ch2);
    if && s1.result.Ok? && s2.result.Ok?
       && TrimSpace(s1.result.value.didAssigned) == s1.result.value.didAssigned
       && s1.result.value.didAssigned != s2.result.value.didAssigned
    {
      var d1 := s1.result.value.didAssigned;
      var d2 := s2.result.value.didAssigned;
      var o2 := LookupOwner(s1.store, d2, ch2.ownerPick, ch2.ownerQueryOk);
      assert s1.router.didToCall[d1] == callId && Inv(s1.router);
      assert s2 == Routed(s1.store, s1.router, callId, ani2, dnis2, now2, d2, o2, ch2.insertOk);
      RoutedAgain(s1.store, s1.router, callId, ani2, dnis2, now2, d1, d2, o2, ch2.insertOk);
      assert s2.router.didToCall[d1] == callId;
      var out := ProcessReturn(s2.store, s2.router, anyAni, d1, now3, ch3);
      assert out == MarkReturned(s2.store, s2.router, d1, now3, ch3.updateOk);
    }
  }

  /** Routing under a call id already correlated with `d1` leaves `d1` pointing at the new record. */
  lemma RoutedAgain(st: Store, r: RouterState, callId: string, ani: string, dnis: string, now: int,
                    d1: string, d2: string, owner: (int, string), insertOk: bool)
    requires d1 in r.didToCall && r.didToCall[d1] == callId && d1 != d2
    ensures
      var r' := Routed(st, r, callId, ani, dnis, now, d2, owner, insertOk).router;
      && d1 in r'.didToCall && r'.didToCall[d1] == callId
      && callId in r'.activeCalls && r'.activeCalls[callId].originalAni == ani && r'.activeCalls[callId].originalDnis == dnis
  {
  }

  // ---------------------------------------------------------------- restart

  /**
   * After the restore, a restorable row that no later restorable row
   * shares a DID with is correlated with its DID and held in memory as read.
   */
  lemma {:induction false} RestoredRowIsCorrelated(r: RouterState, rows: seq<CallRecord>, now: int, k: int)
    requires UniqueCallIds(rows)
    requires 0 <= k < |rows| && Restorable(rows[k], now)
    requires forall j :: k < j < |rows| && Restorable(rows[j], now) ==> rows[j].assignedDid != rows[k].assignedDid
    ensures
      var r' := RestoreRows(r, rows, now);
      && rows[k].assignedDid in r'.didToCall && r'.didToCall[rows[k].assignedDid] == rows[k].callId
      && rows[k].callId in r'.activeCalls && r'.activeCalls[rows[k].callId] == Scanned(rows[k])
    decreases |rows|
  {
    var init := rows[..|rows| - 1];
    var last := rows[|rows| - 1];
    var r0 := RestoreRows(r, init, now);
    assert RestoreRows(r, rows, now) == RestoreOne(r0, last, now);
    if k < |rows| - 1 {
      assert init[k] == rows[k];
      assert forall j :: k < j < |init| ==> init[j] == rows[j];
      RestoredRowIsCorrelated(r, init, now, k);
      assert last.callId != rows[k].callId;
    }
  }

  /**
   * A process restarted at `now0` resolves a return leg on the DID of a
   * restorable call it never routed itself (the last restorable row for
   * that DID), restoring that call's caller and dialled number.
   */
  lemma RestoredCallResolvable(st: Store, now0: int, k: int, ani2: string, did: string, now1: int, ch: ReturnChoices)
    requires UniqueCallIds(st.calls)
    requires 0 <= k < |st.calls| && Restorable(st.calls[k], now0)
    requires forall j :: k < j < |st.calls| && Restorable(st.calls[j], now0) ==> st.calls[j].assignedDid != st.calls[k].assignedDid
    requires TrimSpace(did) == st.calls[k].assignedDid
    ensures ProcessReturn(st, NewRouter(st, now0, true), ani2, did, now1, ch).result == Ok(ReturnResponse(st.calls[k]))
  {
    RestoredRowIsCorrelated(RouterState(map[], map[]), st.calls, now0, k);
  }

  // ---------------------------------------------------------------- provider selection

  /**
   * The selection is a loaded provider's name; with none loaded it is
   * empty (no name, which leases from any provider).
   */
  lemma SelectedIsLoaded(listing: seq<Provider>, m: Manager)
    requires ListingOf(listing, m) && KeyedByName(m)
    ensures |m.providers| == 0 ==> SelectProvider(listing) == ""
    ensures |m.providers| > 0 ==> SelectProvider(listing) in m.providers
  {
    if |m.providers| > 0 {
      assert listing[0] in m.providers.Values;
      var k :| k in m.providers && m.providers[k] == listing[0];
    }
  }

  /** Some listing of any registry exists. */
  lemma {:induction false} ListingExists(m: Manager)
    ensures exists listing :: ListingOf(listing, m)
    decreases |m.providers|
  {
    if |m.providers| == 0 {
      assert ListingOf([], m);
    } else {
      var k :| k in m.providers;
      var listing := ListingHeadedBy(m, k);
    }
  }

  /** A listing of `m` that starts with the provider filed under `k`. */
  lemma {:induction false} ListingHeadedBy(m: Manager, k: string) returns (listing: seq<Provider>)
    requires k in m.providers
    ensures ListingOf(listing, m) && |listing| > 0 && listing[0] == m.providers[k]
    decreases |m.providers|, 0
  {
    var rest := m.(providers := m.providers - {k});
    assert rest.providers.Keys == m.providers.Keys - {k};
    assert |rest.providers| == |m.providers| - 1 by {
      assert |rest.providers.Keys| == |m.providers.Keys| - 1;
    }
    ListingExists(rest);
    var tail :| ListingOf(tail, rest);
    listing := [m.providers[k]] + tail;
    forall i | 0 <= i < |listing|
      ensures listing[i] in m.providers.Values
    {
      if i > 0 {
        assert listing[i] == tail[i - 1];
        assert tail[i - 1] in rest.providers.Values;
        var j :| j in rest.providers && rest.providers[j] == tail[i - 1];
        assert m.providers[j] == tail[i - 1];
      }
    }
    forall j | j in m.providers
      ensures m.providers[j] in listing
    {
      if j != k {
        assert rest.providers[j] in tail;
      }
    }
  }

  /** Go's map order can put any loaded provider first, so any of them may be the one selected. */
  lemma AnyLoadedProviderCanBeSelected(m: Manager, k: string)
    requires KeyedByName(m) && k in m.providers
    ensures exists listing :: ListingOf(listing, m) && SelectProvider(listing) == k
  {
    var listing := ListingHeadedBy(m, k);
    assert SelectProvider(listing) == k;
  }
}

=== FILE: seqs.dfy ===
/** Sequence helpers: the `WHERE` clause of a query over a table kept as a sequence of rows. */
module Seqs {
  import opened Wrappers

  /** The position of the first element of `s` satisfying `f`, if any. */
  function FirstIndex<T>(s: seq<T>, f: T -> bool): (r: Option<nat>)
    ensures r.Some? ==> r.value < |s| && f(s[r.value]) && forall i :: 0 <= i < r.value ==> !f(s[i])
    ensures r.None? ==> forall i :: 0 <= i < |s| ==> !f(s[i])
  {
    if |s| == 0 then None
    else if f(s[0]) then Some(0)
    else match FirstIndex(s[1..], f)
      case None => None
      case Some(k) =>
        assert forall i :: 1 <= i <= k ==> s[i] == s[1..][i - 1];
        Some(k + 1)
  }

  /** The elements of `s` satisfying `f`, in their order in `s`. */
  function Filter<T(!new)>(s: seq<T>, f: T -> bool): (r: seq<T>)
    ensures |r| <= |s|
    ensures forall x :: x in r <==> x in s && f(x)
  {
    if |s| == 0 then []
    else
      var rest := Filter(s[1..], f);
      assert forall x :: x in s <==> x == s[0] || x in s[1..];
      (if f(s[0]) then [s[0]] else []) + rest
  }

  /**
   * Two tables that differ only in rows the predicate rejects on both sides
   * give the same query result.
   */
  lemma {:induction false} FilterAgrees<T(!new)>(a: seq<T>, b: seq<T>, f: T -> bool)
    requires |a| == |b|
    requires forall i :: 0 <= i < |a| ==> f(a[i]) == f(b[i])
    requires forall i :: 0 <= i < |a| && f(a[i]) ==> a[i] == b[i]
    ensures Filter(a, f) == Filter(b, f)
    decreases |a|
  {
    if |a| > 0 {
      assert forall i :: 1 <= i < |a| ==> a[i] == a[1..][i - 1] && b[i] == b[1..][i - 1];
      FilterAgrees(a[1..], b[1..], f);
    }
  }
}

=== FILE: store.dfy ===
/**
 * The persistent store as plain data: the `providers`, `dids` and
 * `call_records` tables, each a sequence of rows in storage order, plus the
 * auto-increment counter of `providers`. The key constraints of the schema
 * are the predicates below; every operation of the model keeps them.
 */
module Store {
  import opened Wrappers
  import opened Models
  import opened Seqs

  datatype Store = Store(
    providers: seq<Provider>,
    dids: seq<Did>,
    calls: seq<CallRecord>,
    nextProviderId: int)

  /** `providers.name` is UNIQUE. */
  predicate UniqueNames(ps: seq<Provider>) {
    forall i, j :: 0 <= i < j < |ps| ==> ps[i].name != ps[j].name
  }

  /** `providers.id` is the auto-increment primary key: unique, positive and below the counter. */
  predicate IdsAllocated(ps: seq<Provider>, next: int) {
    && 0 < next
    && (forall i :: 0 <= i < |ps| ==> 0 < ps[i].id < next)
    && (forall i, j :: 0 <= i < j < |ps| ==> ps[i].id != ps[j].id)
  }

  predicate HasProviderId(ps: seq<Provider>, id: int) {
    exists i :: 0 <= i < |ps| && ps[i].id == id
  }

  /** `dids.provider_id` is a foreign key into `providers.id`. */
  predicate DidsReferenceProviders(st: Store) {
    forall i :: 0 <= i < |st.dids| ==> HasProviderId(st.providers, st.dids[i].providerId)
  }

  /** `call_records.call_id` is UNIQUE. */
  predicate UniqueCallIds(calls: seq<CallRecord>) {
    forall i, j :: 0 <= i < j < |calls| ==> calls[i].callId != calls[j].callId
  }

  predicate Valid(st: Store) {
    && UniqueNames(st.providers)
    && IdsAllocated(st.providers, st.nextProviderId)
    && DidsReferenceProviders(st)
    && UniqueCallIds(st.calls)
  }

  /** The store right after the tables are created. */
  function Empty(): (st: Store)
    ensures Valid(st)
    ensures |st.providers| == 0 && |st.dids| == 0 && |st.calls| == 0
  {
    Store([], [], [], 1)
  }

  /** The position of the provider row named `name`, if any. */
  function FindProvider(ps: seq<Provider>, name: string): (r: Option<nat>)
    ensures r.Some? ==> r.value < |ps| && ps[r.value].name == name
    ensures r.None? ==> forall i :: 0 <= i < |ps| ==> ps[i].name != name
  {
    FirstIndex(ps, (p: Provider) => p.name == name)
  }

  /** The provider row with primary key `id`, if any (the first, should ids repeat). */
  function ProviderById(ps: seq<Provider>, id: int): (r: Option<Provider>)
    ensures r.Some? ==> r.value in ps && r.value.id == id
    ensures r.None? <==> !HasProviderId(ps, id)
  {
    if |ps| == 0 then None
    else if ps[0].id == id then Some(ps[0])
    else
      var r := ProviderById(ps[1..], id);
      assert HasProviderId(ps, id) ==> HasProviderId(ps[1..], id) by {
        if HasProviderId(ps, id) {
          var i :| 0 <= i < |ps| && ps[i].id == id;
          assert ps[1..][i - 1].id == id;
        }
      }
      assert HasProviderId(ps[1..], id) ==> HasProviderId(ps, id) by {
        if HasProviderId(ps[1..], id) {
          var i :| 0 <= i < |ps[1..]| && ps[1..][i].id == id;
          assert ps[i + 1].id == id;
        }
      }
      r
  }

  /** With unique ids, the row `ProviderById` finds is the only one with that id. */
  lemma ProviderByIdUnique(ps: seq<Provider>, next: int, i: int)
    requires IdsAllocated(ps, next)
    requires 0 <= i < |ps|
    ensures ProviderById(ps, ps[i].id) == Some(ps[i])
  {
    var r := ProviderById(ps, ps[i].id);
    var j :| 0 <= j < |ps| && ps[j] == r.value;
    assert i == j;
  }
}

=== FILE: wrappers.dfy ===
/** Failure-carrying values shared by every module of the model. */
module Wrappers {

  /** A value that may be absent: a Go nil pointer, or an SQL NULL column. */
  datatype Option<+T> = None | Some(value: T)

  /** The `(value, error)` pair a Go function returns, with exactly one side set. */
  datatype Result<+T, +E> = Ok(value: T) | Err(error: E)
}
